=== FILE: README.md ===
# Token authority, planet services, round-robin balancer and file integrity checker

This Dafny project models four small systems from one DevOps exercises repository, and proves properties of each.

- **Token authority** (`microservices-security-workshop/shared/auth.py`, module `Auth`). Start-up configuration, issuance of signed access and refresh tokens, the verification chain and the two guards built on it: `get_current_user` and `require_admin`.
  - The HS256 signature is a symbolic term `Hs256(key, claims)`. A token is authentic under a key exactly when it carries that key's signature over its own claims.
  - The JWT library's decode is modelled as three steps in order: reject an inauthentic token, reject a token whose `exp` is not after the current time, otherwise return the payload.
  - Time is integer seconds since the epoch, passed in by the caller.
- **Authentication service** (`auth-service/main.py`, module `AuthService`). Login, refresh, logout and registration, as transitions over the credential store (`USERS` and `USER_PASSWORDS`).
  - Password checking is a function parameter.
  - The salted hash a registration stores is an input.
- **Planet service and creation service** (`planet-service/main.py` and `creation-service/main.py`, modules `PlanetService` and `CreationService`).
  - The planet service is an in-memory planet list with a death toll, supporting lookup, authenticated deletion, unguarded creation and admin-only reset.
  - The creation route picks the next id from the list it fetched. The two HTTP exchanges are inputs: the fetched list, or its failure, and the reply to the POST.
- **Load balancer** (`load_balancer/pool/pool.go`, `core/round_robin.go` and `health_checker/checker.go`, modules `Pool`, `RoundRobin` and `HealthChecker`).
  - The server pool is an append-only sequence.
  - The round-robin cursor uses Go's truncating `%`.
  - Each health probe updates the server's failure and success counters against its thresholds. A probe's outcome is an input: a transport error or a status code.
- **File integrity checker** (`roadmapsh/file_integrity_checker/integrity-checker.py`, module `IntegrityChecker`). `init`, `check` and `update` over a digest store keyed by path. The file system enters as three inputs:
  - the list of paths the target expands to;
  - a digest function, which gives None for an unreadable file;
  - the store file's contents, or None when there is no store file.

Helper modules: `Wrappers` provides `Option` and `Result`. `Sequences` provides an order-preserving subsequence predicate and its lemmas.

The model follows the code as written, including its gaps. For example, deleting a planet with a negative population lowers the death toll, because creation validates nothing. There is one exception: the token expiry comparison at `shared/auth.py:131` is wrong on hosts west of UTC (see "## Findings"). The guards and routes use the corrected `Auth.VerifyToken`. The as-written chain is `Auth.VerifyTokenAsWritten`, and the two agree on hosts at or east of UTC.

## Model

| member | source | states |
|---|---|---|
| Auth.LoadConfig | microservices-security-workshop/shared/auth.py:26-31 | Start-up fails in source order. First it fails iff the secret is unset or empty. Next it fails when the access-lifetime text does not parse as an integer, and then when the refresh-lifetime text does not. It succeeds iff none of these fails. The lifetimes are the parsed values, or 30 minutes and 7 days when their variables are absent. |
| Auth.DefaultLifetimes | microservices-security-workshop/shared/auth.py:26-31 | With only the secret set, start-up succeeds. An access token then verifies for exactly 1800 seconds after issue, and a refresh token for exactly 604800. |
| Auth.Encode | microservices-security-workshop/shared/auth.py:94 | An encoded token carries the given claims and is authentic under the signing key. |
| Auth.Decode | microservices-security-workshop/shared/auth.py:110 | The library rejects exactly the tokens not signed by the key. Among authentic tokens, it reports an expired signature exactly when `exp` is at or before now. A payload is returned unchanged. |
| Auth.FirstMissingClaim | microservices-security-workshop/shared/auth.py:113-120 | Returns None iff every listed claim is present. Otherwise it returns the first absent claim, and every claim before it is present. |
| Auth.RequiredClaimsComplete | microservices-security-workshop/shared/auth.py:113 | No required claim is missing exactly when exp, iat, type and sub are all present. |
| Auth.VerifyAt | microservices-security-workshop/shared/auth.py:108-150 | Whatever clock the code's own expiry check reads, an accepted token is authentic and has every required claim, and the payload is returned as signed. |
| Auth.VerifyToken | microservices-security-workshop/shared/auth.py:108-150 | A token verifies iff it is authentic, complete, of type access or refresh, and unexpired. "Could not validate" iff not authentic. "Expired" iff authentic with `exp <= now`. An authentic, unexpired token that lacks a required claim is rejected for the first absent one in check order, and only such a token gets that error. "Invalid token type" iff the token is otherwise valid but of another type. Every rejection is a 401. |
| Auth.GetCurrentUser | microservices-security-workshop/shared/auth.py:152-181 | Accepts iff the token verifies, is an access token, and names a known, enabled user, and then returns that user. Verification errors pass through. Each later rejection has an iff condition. All rejections are 401. |
| Auth.RequireAdmin | microservices-security-workshop/shared/auth.py:183-189 | Passes the user through unchanged iff the role is "admin", otherwise 403. |
| Auth.CurrentAdmin | microservices-security-workshop/shared/auth.py:183-189 | An admin-only route admits exactly the authenticated users whose role is admin, and returns that user. An authentication error passes through unchanged. An authenticated non-admin gets "Admin privileges required" (403). |
| Auth.CreateAccessToken | microservices-security-workshop/shared/auth.py:83-95 | The token is signed with the configured secret and carries every required claim: the subject, the role, type "access", iat = now, and exp exactly the access lifetime after iat. |
| Auth.CreateRefreshToken | microservices-security-workshop/shared/auth.py:97-106 | The token is signed with the configured secret, carries the subject and no role, has type "refresh", and its exp is exactly the refresh lifetime after iat. |
| Auth.AccessTokenRoundTrip | microservices-security-workshop/shared/auth.py:83-95 | An issued access token verifies exactly until its expiry, 60 times the configured minutes after issue. It then yields subject, role, type "access", iat and exp. Afterwards it is rejected as expired. |
| Auth.RefreshTokenRoundTrip | microservices-security-workshop/shared/auth.py:97-106 | An issued refresh token verifies exactly until 86400 times the configured days after issue. It carries no role and has type "refresh". |
| Auth.TamperedTokenRejected | microservices-security-workshop/shared/auth.py:110 | Changing any claim of an authentic token while keeping its signature makes it fail as "could not validate". |
| Auth.ForeignKeyRejected | microservices-security-workshop/shared/auth.py:110 | A token signed under another key never verifies. |
| Auth.RefreshTokenNeverAuthenticates | microservices-security-workshop/shared/auth.py:157-163 | A refresh token never authenticates a user, although verification accepts it. |
| Auth.AccessTokenAuthenticates | microservices-security-workshop/shared/auth.py:152-181 | A fresh access token of a known, enabled user authenticates exactly that user. |
| Auth.VerifyTokenAsWritten | microservices-security-workshop/shared/auth.py:108-150 | The as-written chain accepts iff the corrected chain accepts and `now - localOffset <= exp`. Every rejection of the corrected chain passes through unchanged. A token the corrected chain accepts but the offset clock puts past its exp is rejected as expired. |
| Auth.AsWrittenHarmlessEastOfUtc | microservices-security-workshop/shared/auth.py:131 | On a host at or east of UTC, the as-written expiry comparison gives the same verdict as the corrected one for every token. |
| Auth.AsWrittenRejectsFreshTokenWestOfUtc | microservices-security-workshop/shared/auth.py:131 | West of UTC by more than the access lifetime, the as-written chain rejects a token issued that second as expired. The corrected chain accepts it. |
| Auth.AsWrittenCounterexample | microservices-security-workshop/shared/auth.py:131 | The concrete case: default lifetimes on a UTC-5 host. |
| AuthService.SeedStore | microservices-security-workshop/shared/auth.py:48-67 | The seed store is consistent and holds exactly "admin" (role admin) and "user" (role user), both enabled, each with its own hash. |
| AuthService.IssueTokens | microservices-security-workshop/auth-service/main.py:89-102 | The pair is issued for the subject and role at that instant: both tokens are signed, the access token carries subject, role, type "access" and the access lifetime, the refresh token carries the subject only, type "refresh" and the refresh lifetime, and the type is "bearer". |
| AuthService.Login | microservices-security-workshop/auth-service/main.py:60-102 | Login succeeds iff the user exists, the password checks against the stored hash, and the user is enabled. The rejections come in source order: unknown user, wrong password, disabled. The tokens carry the user's name and stored role with both lifetimes, and the token type is "bearer". A known user without a stored hash gets the missing-hash server error (500), which a consistent store never hits. |
| AuthService.Refresh | microservices-security-workshop/auth-service/main.py:104-144 | Refresh succeeds iff the presented token verifies, is a refresh token, and names a known user. The new access token takes its role from the store. The disabled flag is not consulted. Verification errors pass through. |
| AuthService.Register | microservices-security-workshop/auth-service/main.py:158-195 | A malformed body (422) and a taken username (400) leave the store unchanged. Otherwise exactly the new username is added to both maps, holding an enabled user with the normalised email and the given hash, and every other entry is kept. Tokens for the requested role are issued, and store consistency is preserved. |
| AuthService.Logout | microservices-security-workshop/auth-service/main.py:151-156 | Logout leaves the store unchanged and answers "Successfully logged out". |
| AuthService.RequestFieldLimits | microservices-security-workshop/shared/auth.py:33-39 | The registration field limits are exact. Usernames of 3 and of 50 characters are accepted, and usernames of 2 and of 51 are refused. A 7-character password is refused. Only the roles "admin" and "user" are accepted, case included. |
| AuthService.LogoutKeepsTokensValid | microservices-security-workshop/auth-service/main.py:151-156 | Logout changes no state. Every token authenticates and refreshes afterwards exactly as before. |
| AuthService.LoginThenAuthenticate | microservices-security-workshop/auth-service/main.py:89-93 | The access token from a successful login authenticates the logged-in user until it expires. |
| AuthService.DisabledUserStillRefreshes | microservices-security-workshop/auth-service/main.py:106-138 | A disabled user is refused at login, but a refresh token that user already holds still yields new tokens. |
| AuthService.AccessTokenCannotRefresh | microservices-security-workshop/auth-service/main.py:109-114 | An access token, however fresh, is never accepted by refresh. |
| AuthService.RegisterGrantsRequestedAdmin | microservices-security-workshop/auth-service/main.py:169-185 | Anyone registering with role "admin" receives an access token that passes the admin guard evaluated against the auth service's own user map, the one the registration wrote to. |
| AuthService.AliceScenario | microservices-security-workshop/auth-service/main.py:60-195 | Register "alice" as a user, log in and authenticate: the authenticated user is alice, and the admin guard refuses with 403. |
| PlanetService.FirstIndex | microservices-security-workshop/planet-service/main.py:67-69 | Finds the first position holding the id. None iff no planet has it. |
| PlanetService.GetPlanet | microservices-security-workshop/planet-service/main.py:65-70 | Succeeds iff some planet has the id, and returns the first such planet. Otherwise 404. |
| PlanetService.DeletePlanet | microservices-security-workshop/planet-service/main.py:76-84 | Deletes exactly the first planet with the id: the rest of the list keeps its order, the multiset shrinks by that planet, and the toll grows by its population and is returned. An absent id is a 404 that changes nothing. |
| PlanetService.CreatePlanet | microservices-security-workshop/planet-service/main.py:131-138 | Appends the planet unchanged and leaves the toll alone. |
| PlanetService.ResetPlanets | microservices-security-workshop/planet-service/main.py:140-144 | Restores the initial list and keeps the toll. |
| PlanetService.DeletePlanetRoute | microservices-security-workshop/planet-service/main.py:76-77 | A caller that fails authentication gets the authentication error and nothing changes. Otherwise the route deletes. |
| PlanetService.ResetRoute | microservices-security-workshop/planet-service/main.py:140-144 | Resets iff the caller is an authenticated admin. Otherwise the error is the guard's and nothing changes. |
| PlanetService.InitialPlanetsWellFormed | microservices-security-workshop/planet-service/main.py:23-49 | The 25 initial planets have ids 1 to 25 in order, hence unique, and no negative population. |
| PlanetService.DeathTollNeverDecreases | microservices-security-workshop/planet-service/main.py:81 | With no negative populations, deletion never lowers the toll and keeps the populations non-negative. |
| PlanetService.NegativePopulationLowersToll | microservices-security-workshop/planet-service/main.py:131-138 | Because creation accepts any population, deleting a created planet of population -5 takes the toll below its start. |
| PlanetService.CreateAllowsDuplicateIds | microservices-security-workshop/planet-service/main.py:134-137 | Posting a planet whose id is already present breaks id uniqueness. |
| PlanetService.DeleteRemovesUniqueId | microservices-security-workshop/planet-service/main.py:79-84 | With unique ids, a deleted id is gone for good and the ids stay unique. |
| PlanetService.ResetAfterDeleteKeepsToll | microservices-security-workshop/planet-service/main.py:140-144 | Reset after any deletion gives the initial list with the accumulated toll, and planet 1 is found again. |
| PlanetService.UserCannotReset | microservices-security-workshop/planet-service/main.py:141 | A valid access token with role user is refused by the reset route with 403, and nothing changes. |
| PlanetService.RefreshTokenCannotDelete | microservices-security-workshop/planet-service/main.py:77 | A refresh token never gets a planet deleted. |
| CreationService.MaxId | microservices-security-workshop/creation-service/main.py:47 | Returns the largest id in the list: it bounds every id and is attained. |
| CreationService.NewId | microservices-security-workshop/creation-service/main.py:47 | The new id is 1 for an empty list, and otherwise one more than the largest id, so it exceeds every existing id. |
| CreationService.CreatePlanetRoute | microservices-security-workshop/creation-service/main.py:31-68 | Authentication failures pass through. Succeeds iff the caller authenticates, the listing arrived, and the POST answered 200. Every other failure is a 500. The created planet carries the request's fields, an id absent from the listing, and the success message. The id is `NewId` of the listing: 1 for an empty one, otherwise one more than the largest id present. |
| CreationService.CreateThroughPlanetService | microservices-security-workshop/creation-service/main.py:45-64 | Wired to the planet service, creation succeeds iff the caller authenticates. It then appends a planet whose id was not in the list. Otherwise nothing changes. |
| CreationService.CreationKeepsIdsUnique | microservices-security-workshop/creation-service/main.py:47 | Creation through the creation service keeps the planet ids unique. |
| Pool.NewServerPool | load_balancer/pool/pool.go:9-13 | A new pool holds no servers. |
| Pool.AddServer | load_balancer/pool/pool.go:16-19 | Appends the server and keeps the servers already there in place. |
| Pool.GetServers | load_balancer/pool/pool.go:21-23 | Returns every server of the pool, in the order held. AddAllInOrder shows this is the order of insertion. |
| Pool.AddAllInOrder | load_balancer/pool/pool.go:16-23 | After a sequence of adds, GetServers returns what the pool held followed by the added servers, in order. |
| Pool.FreshPoolHoldsAdded | load_balancer/pool/pool.go:9-23 | A fresh pool filled from a list holds exactly that list. |
| Pool.GetHealthyServers | load_balancer/pool/pool.go:25-33 | Returns an order-preserving selection of the pool that holds every healthy server and nothing else, as many as the pool has healthy ones. |
| RoundRobin.NewRoundRobinBalancer | load_balancer/core/round_robin.go:21-26 | A new balancer sits on the given pool before the first server, with cursor -1. Its first call over a non-empty pool returns the first server. |
| RoundRobin.GoRem | load_balancer/core/round_robin.go:38 | Go's remainder for a positive divisor. It is zero or has the dividend's sign, its magnitude is below the divisor, and it differs from the dividend by a multiple of the divisor; these three facts determine it. On a non-negative dividend it equals Dafny's `%`. |
| RoundRobin.GetNextServer | load_balancer/core/round_robin.go:28-43 | With no servers: the error "no servers available" and no move. Otherwise the cursor becomes (idx + 1) mod n, the server under it is returned, and the cursor stays reachable. |
| RoundRobin.CallsCycle | load_balancer/core/round_robin.go:28-43 | Over a fixed pool, the j-th of k consecutive calls returns the server j + 1 places after the cursor, cyclically. |
| RoundRobin.FreshBalancerCycles | load_balancer/core/round_robin.go:21-43 | From a fresh balancer, call number k returns server k mod n. |
| RoundRobin.PositionsDistinctPerRound | load_balancer/core/round_robin.go:38 | Any n consecutive calls land on n different positions. |
| RoundRobin.EveryServerOncePerRound | load_balancer/core/round_robin.go:28-43 | From any cursor, each server is returned by exactly one of the next n calls. |
| RoundRobin.UnhealthyServerIsSelected | load_balancer/core/round_robin.go:29-40 | Selection ignores health: an unhealthy server is still handed out. |
| HealthChecker.UpdateUnhealthy | load_balancer/health_checker/checker.go:65-76 | An unhealthy server is left exactly as it is. A healthy one counts one more failure and stays healthy iff the count is still below its threshold. |
| HealthChecker.UpdateHealthy | load_balancer/health_checker/checker.go:78-86 | Never makes a server unhealthy. An unhealthy server reaching its success threshold turns healthy with both counters zeroed. Otherwise the server counts one more success. |
| HealthChecker.DoHTTPRequest | load_balancer/health_checker/checker.go:47-63 | A transport error is a failure. A 200 on an unhealthy server is a success. A non-200 on a healthy server is a failure. The two remaining cases change nothing. |
| HealthChecker.CheckServer | load_balancer/health_checker/checker.go:31-35 | A server without a health URL is skipped unchanged. Every other server gets exactly the update the probe outcome calls for. |
| HealthChecker.Sweep | load_balancer/health_checker/checker.go:26-36 | One pass over the pool probes each server with a health URL, leaves the others unchanged, and changes no server's identity or thresholds. |
| HealthChecker.RunProbesAppend | load_balancer/health_checker/checker.go:28-37 | Probing with one trace and then another equals probing with the two traces joined. |
| HealthChecker.FailuresAccumulateWhileHealthy | load_balancer/health_checker/checker.go:56-76 | While a server stays healthy, 200 replies never reset its failure count: failures accumulate across any interleaving. |
| HealthChecker.FailureAtThresholdMarksUnhealthy | load_balancer/health_checker/checker.go:69-75 | The failure that brings the accumulated count to the threshold marks the server unhealthy. |
| HealthChecker.SuccessesAccumulateWhileUnhealthy | load_balancer/health_checker/checker.go:50-86 | While a server stays unhealthy, failed probes change nothing and successes accumulate. |
| HealthChecker.SuccessAtThresholdMarksHealthy | load_balancer/health_checker/checker.go:78-86 | The 200 that brings the successes to the threshold makes the server healthy with both counters reset. |
| HealthChecker.ProbeKeepsCountersBounded | load_balancer/health_checker/checker.go:47-86 | Every probe keeps the counters within their thresholds. |
| HealthChecker.RunKeepsCountersBounded | load_balancer/health_checker/checker.go:28-37 | Any sequence of probes keeps the counters within their thresholds, so they never grow without bound. |
| IntegrityChecker.LoadHashes | roadmapsh/file_integrity_checker/integrity-checker.py:22-27 | Without a store file the store is empty. Otherwise it is the saved store. |
| IntegrityChecker.Record | roadmapsh/file_integrity_checker/integrity-checker.py:52-55 | A path is in the result iff it was in the store, or it is listed with a recorded digest. Listed readable files get their digest, and every other entry is kept. |
| IntegrityChecker.InitHashes | roadmapsh/file_integrity_checker/integrity-checker.py:48-58 | The fresh store holds exactly the listed files with a non-empty digest, each with that digest. |
| IntegrityChecker.UpdateHashes | roadmapsh/file_integrity_checker/integrity-checker.py:85-95 | Overwrites the entry of each listed file that could be read, and keeps every other saved entry. |
| IntegrityChecker.Select | roadmapsh/file_integrity_checker/integrity-checker.py:67-78 | Each list is an order-preserving selection of the listed files with a stored digest, by modified status. |
| IntegrityChecker.SelectSplitsTracked | roadmapsh/file_integrity_checker/integrity-checker.py:67-78 | Together the two lists are exactly as long as the listed files that have a stored digest. |
| IntegrityChecker.Tracked | roadmapsh/file_integrity_checker/integrity-checker.py:69-72 | Keeps exactly the listed files that have a stored digest, in listing order. |
| IntegrityChecker.CheckFiles | roadmapsh/file_integrity_checker/integrity-checker.py:60-78 | A file without a stored digest is in neither list. Otherwise it is modified iff its current digest differs from the stored one, a failed read included, and unmodified otherwise. Both lists keep the listing order and together cover the tracked files. |
| IntegrityChecker.Run | roadmapsh/file_integrity_checker/integrity-checker.py:97-112 | `check` and `-check` both report without touching the store file. `init` replaces the store file, and `update` merges into it. |
| IntegrityChecker.CheckAgainstCurrentDigests | roadmapsh/file_integrity_checker/integrity-checker.py:67-78 | A store holding every listed file's current digest gives an empty modified list and all files unmodified, in order. |
| IntegrityChecker.UpdateThenCheckIsClean | roadmapsh/file_integrity_checker/integrity-checker.py:60-95 | After `update` over readable files, an immediate `check` of the same files, all unchanged in between, reports all of them unmodified. The store file is written by the run, so this covers listed files other than the store file. |
| IntegrityChecker.InitThenCheckIsClean | roadmapsh/file_integrity_checker/integrity-checker.py:48-78 | The same holds right after `init`, again for unchanged files other than the store file. |
| IntegrityChecker.UpdateReportsOwnStoreFile | roadmapsh/file_integrity_checker/integrity-checker.py:85-95 | When the store file is itself listed, update records its old digest and then rewrites it, so the next check reports it modified. |
| IntegrityChecker.ChangedFileIsReported | roadmapsh/file_integrity_checker/integrity-checker.py:73-75 | A file recorded at init is reported modified if its digest later differs, which includes becoming unreadable. |
| IntegrityChecker.UnreadableAtInitIsUntracked | roadmapsh/file_integrity_checker/integrity-checker.py:53-55 | A file unreadable at init is in neither list of a later check. |

## Left out

- Cryptography: HS256 and Argon2 are abstract. The signature is a symbolic term, and password checking is a parameter, so nothing about key strength or hash cost is stated.
- The `ccnumber` claim put into access tokens carries no behaviour and is not modelled.
- HTTP plumbing is not modelled: FastAPI routing, the bearer-header extraction, CORS, security headers and slowapi rate limits.
- Request validation: the email syntax check behind `EmailStr` is not modelled, and its normalisation of the address is the parameter `normalizeEmail` of `AuthService.Register`. The field limits assume Pydantic v2, which enforces `Field(pattern=...)`; Pydantic v1 ignores `pattern` and would accept any role. A malformed body is one `InvalidRequest` (422) outcome. The framework's list of validation errors in that response has no model, so `AuthError.Detail` gives no text for it.
- The PyJWT library's own `iat`/`nbf` checks and its type checks on claim values are not modelled. Decode rejects on signature and on `exp <= now` only.
- Auth.VerifyToken: the guards and routes use the corrected expiry comparison, not the one at `shared/auth.py:131`. On hosts west of UTC they are therefore more permissive than the source. AsWrittenHarmlessEastOfUtc shows that on hosts at or east of UTC the two agree for every token.
- Auth.CreateAccessToken: issuance is total. The source adds the lifetime to `datetime.utcnow()`, which raises `OverflowError` past the year 9999, and `timedelta` rejects more than 999999999 days. A lifetime that large makes every login, refresh and registration a server error. The model instead issues a token with the far-off `exp`.
- Auth.CreateRefreshToken: the same `datetime` range limit applies and is not modelled.
- Auth.LoadConfig: the grammar `int()` accepts (signs, surrounding whitespace, digit separators) is the parameter `parseInt`. Only the verdict on each text is modelled. The defaults "30" and "7" are taken as parsing to 30 and 7.
- AuthService.RegisterGrantsRequestedAdmin: each service process imports `shared/auth.py` and so holds its own copy of `USERS`. A registration changes only the auth service's copy. Each route model takes the user map of the process it runs in. Nothing connects the maps of different processes, so an account registered at the auth service is unknown to the planet service's guards.
- Clock reads: the model reads one clock value per call, while the source reads the clock twice (library and own check). Sub-second time is not modelled.
- The `except PyJWT.InvalidTokenError` clause of the refresh route is not modelled. The verification helper already converts every library error into an HTTP error, so that clause never runs.
- The planet service's `GET /planets`, `GET /death-toll` and `/search` (an SQLite query over a copy of the list) are not modelled. They read state without changing it.
- `GET /users/me` returns what `Auth.GetCurrentUser` returns and has no member of its own.
- The creation service's `/upload-image` route and its file writing are not modelled.
- The salvation service, the OpenTelemetry trace analyser and the demo servers lie outside the modelled core.
- `load_balancer/main.go` start-up wiring, the HTTP reverse proxy and `LoadBalancer.Serve` are not modelled. Every added server is modelled as its own record. The start-up loop appends `&server`, the address of its loop variable. Whether those addresses are distinct depends on the Go version, and the model does not capture that.
- The pool's and balancer's mutexes and the health checker's goroutine are not modelled, because the model is sequential.
- HealthChecker.Sweep: one pass only. The source's loop is infinite and never reaches its sleep. It probes servers back to back and reads the server list once, before the loop. Every probe is taken to return a transport error or a status. The source's `http.Client{}` has no time-out, so a health URL that accepts the connection and never answers blocks the checker for good: later servers are never probed and no counter changes again. That stall is not modelled.
- HealthChecker.RunKeepsCountersBounded: Go's 64-bit overflow of the counters is not modelled. The bound proved keeps them far below it for any thresholds main.go configures (3 and 3).
- RoundRobin.GetNextServer: requires a cursor of at least -1, the only values the constructor and the method produce. A pool that shrinks is not modelled; the Go pool only grows.
- PlanetService.DeathTollNeverDecreases: stated only for lists without negative populations. The source accepts any population, and NegativePopulationLowersToll shows the toll falling.
- The integrity checker's `os.walk` listing, SHA-256, JSON load/save and its printing are inputs or left out. A corrupt store file, which makes `json.load` raise, is not modelled.
- CreationService.CreationKeepsIdsUnique: one request at a time. The route awaits between its GET of the list and its POST (`creation-service/main.py:45-58`), so two concurrent creations can read the same list and post the same id. Interleaved requests are not modelled.
- IntegrityChecker.UpdateThenCheckIsClean: the store path `file_hashes.json` is relative to the working directory. When the tool runs from inside the watched directory, the store file is among the listed files. Its digest changes when the run rewrites it, so this lemma and InitThenCheckIsClean speak of the other files. UpdateReportsOwnStoreFile states what happens to the store file.
- IntegrityChecker.Run: `DashCheck` is the `-check` choice as the parser lists it. Given bare on the command line, argparse takes `-check` for an unknown option and exits with a usage error. The choice is reachable only after `--`. Argument parsing is not modelled.
- CreationService.CreatePlanetRoute: the forwarding of the Authorization header is not modelled, and a malformed listing counts as a failed fetch.

## Findings

| source | as written | input that shows it | evidently intended | confidence | as-written member | corrected member |
|---|---|---|---|---|---|---|
| microservices-security-workshop/shared/auth.py:131 | The expiry check compares `exp` with `datetime.utcnow().timestamp()`. This reads the naive UTC wall clock as if it were local time, so it is off by the host's UTC offset. | On a host at UTC-5, default 30-minute lifetime, an access token issued at time `now` is checked against `now + 18000`. It is rejected as "Token has expired" in the second it is issued. | Compare against the true current time, `now` in epoch seconds, as the library's own check does. | not executed | Auth.AsWrittenRejectsFreshTokenWestOfUtc | Auth.VerifyToken |

=== FILE: auth.dfy ===
/** The token authority shared by the workshop services (shared/auth.py):
    configuration, the user record, issuance of access and refresh tokens,
    verification of a presented token, and the two guards built on it.

    The HS256 signature is modelled symbolically: a signature is the term
    `Hs256(key, claims)`, so a token is authentic under a key exactly when it
    carries the signature of that key over its own claims. Nothing else is
    assumed about the cryptography. Time is an integer number of seconds
    since the epoch, passed in by the caller. */
module Auth {
  import opened Wrappers

  // ---------------------------------------------------------------------
  // Configuration (read from the environment when the module is loaded)
  // ---------------------------------------------------------------------

  const DefaultAccessTokenExpireMinutes: int := 30
  const DefaultRefreshTokenExpireDays: int := 7
  const SecondsPerMinute: int := 60
  const SecondsPerDay: int := 86400

  datatype Config = Config(secretKey: string, accessTokenExpireMinutes: int, refreshTokenExpireDays: int)

  /** Why the module fails to load: the secret is unset or empty, or a
      lifetime variable holds text that `int()` rejects. */
  datatype StartupError = SecretKeyNotSet | InvalidLifetime(variable: string, text: string)

  /** Python's `int()` on the text of an environment variable: the number it
      denotes, or None where it raises. Its exact grammar is a parameter. */
  type IntParser = string -> Option<int>

  /** Start-up: the secret must be set and non-empty, and is checked first;
      then each lifetime is parsed from its variable, access before refresh,
      falling back to its default when the variable is absent. */
  function LoadConfig(secretEnv: Option<string>, accessEnv: Option<string>, refreshEnv: Option<string>, parseInt: IntParser)
    : (r: Result<Config, StartupError>)
    ensures r == Err(SecretKeyNotSet) <==> secretEnv == None || secretEnv == Some("")
    ensures secretEnv.Some? && secretEnv.value != "" && accessEnv.Some? && parseInt(accessEnv.value).None? ==>
              r == Err(InvalidLifetime("ACCESS_TOKEN_EXPIRE_MINUTES", accessEnv.value))
    ensures r.Err? && r.error.InvalidLifetime? && r.error.variable == "REFRESH_TOKEN_EXPIRE_DAYS" ==>
              (accessEnv.None? || parseInt(accessEnv.value).Some?) && refreshEnv == Some(r.error.text)
              && parseInt(refreshEnv.value).None?
    ensures && secretEnv.Some? && secretEnv.value != ""
            && (accessEnv.None? || parseInt(accessEnv.value).Some?)
            && refreshEnv.Some? && parseInt(refreshEnv.value).None? ==>
              r == Err(InvalidLifetime("REFRESH_TOKEN_EXPIRE_DAYS", refreshEnv.value))
    ensures r.Ok? <==>
              && secretEnv.Some? && secretEnv.value != ""
              && (accessEnv.None? || parseInt(accessEnv.value).Some?)
              && (refreshEnv.None? || parseInt(refreshEnv.value).Some?)
    ensures r.Ok? ==> Some(r.value.secretKey) == secretEnv
    ensures r.Ok? && accessEnv.None? ==> r.value.accessTokenExpireMinutes == DefaultAccessTokenExpireMinutes
    ensures r.Ok? && refreshEnv.None? ==> r.value.refreshTokenExpireDays == DefaultRefreshTokenExpireDays
    ensures r.Ok? && accessEnv.Some? ==> Some(r.value.accessTokenExpireMinutes) == parseInt(accessEnv.value)
    ensures r.Ok? && refreshEnv.Some? ==> Some(r.value.refreshTokenExpireDays) == parseInt(refreshEnv.value)
  {
    match secretEnv
    case None => Err(SecretKeyNotSet)
    case Some(secret) =>
      if secret == "" then Err(SecretKeyNotSet)
      else
        var access := match accessEnv case Some(text) => parseInt(text) case None => Some(DefaultAccessTokenExpireMinutes);
        var refresh := match refreshEnv case Some(text) => parseInt(text) case None => Some(DefaultRefreshTokenExpireDays);
        if access.None? then Err(InvalidLifetime("ACCESS_TOKEN_EXPIRE_MINUTES", accessEnv.value))
        else if refresh.None? then Err(InvalidLifetime("REFRESH_TOKEN_EXPIRE_DAYS", refreshEnv.value))
        else Ok(Config(secret, access.value, refresh.value))
  }

  // ---------------------------------------------------------------------
  // Users and errors
  // ---------------------------------------------------------------------

  const AdminRole: string := "admin"
  const UserRole: string := "user"

  datatype User = User(username: string, email: string, role: string, disabled: bool)

  /** Every rejection the authentication code raises, with its HTTP status
      and the detail text it sends back. */
  datatype AuthError =
    | CouldNotValidate
    | TokenExpired
    | MissingClaim(claim: string)
    | InvalidTokenType
    | InvalidAuthCredentials
    | UserDisabled
    | AdminRequired
    | IncorrectLogin
    | UsernameTaken
    | InvalidRequest
    | PasswordHashMissing
  {
    function Status(): int {
      match this
      case AdminRequired => 403
      case UsernameTaken => 400
      case InvalidRequest => 422
      case PasswordHashMissing => 500
      case _ => 401
    }

    /** The detail string the code raises; None where the response is the
        framework's own (a list of validation errors for a malformed body, a
        generic server error for the unhandled lookup failure). */
    function Detail(): Option<string> {
      match this
      case CouldNotValidate => Some("Could not validate credentials")
      case TokenExpired => Some("Token has expired")
      case MissingClaim(claim) => Some("Missing required claim: " + claim)
      case InvalidTokenType => Some("Invalid token type")
      case InvalidAuthCredentials => Some("Invalid authentication credentials")
      case UserDisabled => Some("User is disabled")
      case AdminRequired => Some("Admin privileges required")
      case IncorrectLogin => Some("Incorrect username or password")
      case UsernameTaken => Some("Username already registered")
      case InvalidRequest => None
      case PasswordHashMissing => None
    }
  }

  // ---------------------------------------------------------------------
  // Claims and signed tokens
  // ---------------------------------------------------------------------

  const AccessType: string := "access"
  const RefreshType: string := "refresh"

  /** The claim set of a token. `None` means the key is absent from the
      payload; `typ` is the claim named "type". */
  datatype Claims = Claims(sub: Option<string>, role: Option<string>, typ: Option<string>, iat: Option<int>, exp: Option<int>)

  /** Symbolic HS256 signature: only the holder of `key` can produce it, and it binds `signed`. */
  datatype Signature = Hs256(key: string, signed: Claims)

  datatype Jwt = Jwt(claims: Claims, signature: Signature)

  predicate Authentic(t: Jwt, key: string) {
    t.signature == Hs256(key, t.claims)
  }

  function Encode(claims: Claims, key: string): (t: Jwt)
    ensures t.claims == claims && Authentic(t, key)
  {
    Jwt(claims, Hs256(key, claims))
  }

  /** Access token: the caller's subject and role, type "access", issued at
      `now`, expiring the configured number of minutes later. */
  function CreateAccessToken(cfg: Config, sub: string, role: string, now: int): (t: Jwt)
    ensures Authentic(t, cfg.secretKey) && Complete(t.claims)
    ensures t.claims.sub == Some(sub) && t.claims.role == Some(role) && t.claims.typ == Some(AccessType)
    ensures t.claims.iat == Some(now) && t.claims.exp.value - t.claims.iat.value == cfg.accessTokenExpireMinutes * SecondsPerMinute
  {
    Encode(Claims(Some(sub), Some(role), Some(AccessType), Some(now),
                  Some(now + cfg.accessTokenExpireMinutes * SecondsPerMinute)), cfg.secretKey)
  }

  /** Refresh token: only the subject, type "refresh", expiring the configured
      number of days after `now`. */
  function CreateRefreshToken(cfg: Config, sub: string, now: int): (t: Jwt)
    ensures Authentic(t, cfg.secretKey) && Complete(t.claims)
    ensures t.claims.sub == Some(sub) && t.claims.role.None? && t.claims.typ == Some(RefreshType)
    ensures t.claims.iat == Some(now) && t.claims.exp.value - t.claims.iat.value == cfg.refreshTokenExpireDays * SecondsPerDay
  {
    Encode(Claims(Some(sub), None, Some(RefreshType), Some(now),
                  Some(now + cfg.refreshTokenExpireDays * SecondsPerDay)), cfg.secretKey)
  }

  // ---------------------------------------------------------------------
  // Verification
  // ---------------------------------------------------------------------

  /** What the JWT library's decode call yields: the payload, its own
      expired-signature error, or any other invalid-token error. The library
      rejects a token whose `exp` is at or before the current time. */
  datatype Decoded = Payload(claims: Claims) | ExpiredSignature | InvalidToken

  function Decode(t: Jwt, key: string, now: int): (d: Decoded)
    ensures d.Payload? ==> Authentic(t, key) && d.claims == t.claims
    ensures d == InvalidToken <==> !Authentic(t, key)
    ensures d == ExpiredSignature <==> Authentic(t, key) && t.claims.exp.Some? && t.claims.exp.value <= now
  {
    if !Authentic(t, key) then InvalidToken
    else if t.claims.exp.Some? && t.claims.exp.value <= now then ExpiredSignature
    else Payload(t.claims)
  }

  /** The claims every verified payload must carry, in the order they are checked. */
  const RequiredClaims: seq<string> := ["exp", "iat", "type", "sub"]

  predicate HasClaim(c: Claims, name: string) {
    if name == "exp" then c.exp.Some?
    else if name == "iat" then c.iat.Some?
    else if name == "type" then c.typ.Some?
    else if name == "sub" then c.sub.Some?
    else if name == "role" then c.role.Some?
    else false
  }

  predicate Complete(c: Claims) {
    c.exp.Some? && c.iat.Some? && c.typ.Some? && c.sub.Some?
  }

  /** The first name in `names` whose claim is absent. */
  function FirstMissingClaim(c: Claims, names: seq<string>): (r: Option<string>)
    ensures r.None? <==> forall i :: 0 <= i < |names| ==> HasClaim(c, names[i])
    ensures r.Some? ==> exists i :: 0 <= i < |names| && names[i] == r.value && !HasClaim(c, names[i])
                                    && forall j :: 0 <= j < i ==> HasClaim(c, names[j])
  {
    if |names| == 0 then None
    else if !HasClaim(c, names[0]) then Some(names[0])
    else
      var r := FirstMissingClaim(c, names[1..]);
      assert r.Some? ==> exists i :: 1 <= i < |names| && names[i] == r.value && !HasClaim(c, names[i])
                                     && forall j :: 0 <= j < i ==> HasClaim(c, names[j]) by {
        if r.Some? {
          var k :| 0 <= k < |names[1..]| && names[1..][k] == r.value && !HasClaim(c, names[1..][k])
                   && forall j :: 0 <= j < k ==> HasClaim(c, names[1..][j]);
          assert forall j :: 0 <= j < k + 1 ==> HasClaim(c, names[j]) by {
            forall j | 0 <= j < k + 1 ensures HasClaim(c, names[j]) {
              if j > 0 { assert names[j] == names[1..][j - 1]; }
            }
          }
        }
      }
      r
  }

  lemma RequiredClaimsComplete(c: Claims)
    ensures FirstMissingClaim(c, RequiredClaims).None? <==> Complete(c)
  {
    assert RequiredClaims[0] == "exp" && RequiredClaims[1] == "iat";
    assert RequiredClaims[2] == "type" && RequiredClaims[3] == "sub";
  }

  predicate KnownType(typ: string) {
    typ == AccessType || typ == RefreshType
  }

  /** The verification chain: decode (signature, then the library's expiry
      check), then presence of each required claim in order, then the type,
      then the code's own expiry comparison against `checkClock`. The library
      reads the true current time `now`; `checkClock` is the value the code
      computes for its own comparison. */
  function VerifyAt(t: Jwt, key: string, now: int, checkClock: int): (r: Result<Claims, AuthError>)
    ensures r.Ok? ==> r.value == t.claims && Authentic(t, key) && Complete(t.claims)
  {
    match Decode(t, key, now)
    case InvalidToken => Err(CouldNotValidate)
    case ExpiredSignature => Err(TokenExpired)
    case Payload(c) =>
      match FirstMissingClaim(c, RequiredClaims)
      case Some(name) => Err(MissingClaim(name))
      case None =>
        RequiredClaimsComplete(c);
        if !KnownType(c.typ.value) then Err(InvalidTokenType)
        else if checkClock > c.exp.value then Err(TokenExpired)
        else Ok(c)
  }

  /** verify_token with a single, correctly read UTC clock. */
  function VerifyToken(t: Jwt, key: string, now: int): (r: Result<Claims, AuthError>)
    ensures r.Ok? <==> Authentic(t, key) && Complete(t.claims) && KnownType(t.claims.typ.value) && now < t.claims.exp.value
    ensures r.Ok? ==> r.value == t.claims
    ensures r == Err(CouldNotValidate) <==> !Authentic(t, key)
    ensures r == Err(TokenExpired) <==> Authentic(t, key) && t.claims.exp.Some? && t.claims.exp.value <= now
    ensures r.Err? && r.error.MissingClaim? ==>
              Authentic(t, key) && FirstMissingClaim(t.claims, RequiredClaims) == Some(r.error.claim)
    ensures Authentic(t, key) && !(t.claims.exp.Some? && t.claims.exp.value <= now) && !Complete(t.claims) ==>
              r.Err? && r.error.MissingClaim? && Some(r.error.claim) == FirstMissingClaim(t.claims, RequiredClaims)
    ensures r == Err(InvalidTokenType) <==>
              Authentic(t, key) && Complete(t.claims) && now < t.claims.exp.value && !KnownType(t.claims.typ.value)
    ensures r.Err? ==> r.error.Status() == 401
  {
    RequiredClaimsComplete(t.claims);
    VerifyAt(t, key, now, now)
  }

  /** verify_token as written: its own expiry comparison reads a naive UTC
      wall-clock value through `timestamp()`, which interprets it as local
      time. With the host's offset east of UTC being `localOffset` seconds,
      the value compared is `now - localOffset`. */
  function VerifyTokenAsWritten(t: Jwt, key: string, now: int, localOffset: int): (r: Result<Claims, AuthError>)
    ensures r.Ok? <==> VerifyToken(t, key, now).Ok? && now - localOffset <= t.claims.exp.value
    ensures r.Ok? ==> r.value == t.claims
    ensures VerifyToken(t, key, now).Err? ==> r == VerifyToken(t, key, now)
    ensures VerifyToken(t, key, now).Ok? && now - localOffset > t.claims.exp.value ==> r == Err(TokenExpired)
  {
    RequiredClaimsComplete(t.claims);
    VerifyAt(t, key, now, now - localOffset)
  }

  // ---------------------------------------------------------------------
  // Guards
  // ---------------------------------------------------------------------

  /** get_current_user: a verified access token whose subject is a known,
      enabled user. */
  function GetCurrentUser(users: map<string, User>, t: Jwt, cfg: Config, now: int): (r: Result<User, AuthError>)
    ensures r.Ok? <==>
              && VerifyToken(t, cfg.secretKey, now).Ok?
              && t.claims.typ == Some(AccessType)
              && t.claims.sub.value in users
              && !users[t.claims.sub.value].disabled
    ensures r.Ok? ==> r.value == users[t.claims.sub.value] && Authentic(t, cfg.secretKey)
    ensures VerifyToken(t, cfg.secretKey, now).Err? ==> r == Err(VerifyToken(t, cfg.secretKey, now).error)
    ensures VerifyToken(t, cfg.secretKey, now).Ok? && t.claims.typ != Some(AccessType) ==> r == Err(InvalidTokenType)
    ensures r == Err(InvalidAuthCredentials) <==>
              VerifyToken(t, cfg.secretKey, now).Ok? && t.claims.typ == Some(AccessType) && t.claims.sub.value !in users
    ensures r == Err(UserDisabled) <==>
              && VerifyToken(t, cfg.secretKey, now).Ok? && t.claims.typ == Some(AccessType)
              && t.claims.sub.value in users && users[t.claims.sub.value].disabled
    ensures r.Err? ==> r.error.Status() == 401
  {
    match VerifyToken(t, cfg.secretKey, now)
    case Err(e) => Err(e)
    case Ok(c) =>
      if c.typ != Some(AccessType) then Err(InvalidTokenType)
      else if c.sub.value !in users then Err(InvalidAuthCredentials)
      else if users[c.sub.value].disabled then Err(UserDisabled)
      else Ok(users[c.sub.value])
  }

  /** require_admin: passes the user through unchanged exactly when the role is "admin". */
  function RequireAdmin(u: User): (r: Result<User, AuthError>)
    ensures r.Ok? <==> u.role == AdminRole
    ensures r.Ok? ==> r.value == u
    ensures r.Err? ==> r.error == AdminRequired && r.error.Status() == 403
  {
    if u.role != AdminRole then Err(AdminRequired) else Ok(u)
  }

  /** The dependency chain of an admin-only route: authenticate, then require the admin role. */
  function CurrentAdmin(users: map<string, User>, t: Jwt, cfg: Config, now: int): (r: Result<User, AuthError>)
    ensures r.Ok? <==> GetCurrentUser(users, t, cfg, now).Ok? && GetCurrentUser(users, t, cfg, now).value.role == AdminRole
    ensures r.Ok? ==> r == GetCurrentUser(users, t, cfg, now)
    ensures GetCurrentUser(users, t, cfg, now).Err? ==> r == GetCurrentUser(users, t, cfg, now)
    ensures GetCurrentUser(users, t, cfg, now).Ok? && GetCurrentUser(users, t, cfg, now).value.role != AdminRole ==>
              r == Err(AdminRequired)
  {
    match GetCurrentUser(users, t, cfg, now)
    case Err(e) => Err(e)
    case Ok(u) => RequireAdmin(u)
  }

  // ---------------------------------------------------------------------
  // Properties
  // ---------------------------------------------------------------------

  /** An access token verifies exactly until its expiry, and then yields its
      subject, its role and type "access"; after expiry it is rejected as
      expired. */
  lemma AccessTokenRoundTrip(cfg: Config, sub: string, role: string, iat: int, now: int)
    ensures var t := CreateAccessToken(cfg, sub, role, iat);
            var r := VerifyToken(t, cfg.secretKey, now);
            && t.claims.exp == Some(iat + cfg.accessTokenExpireMinutes * SecondsPerMinute)
            && (r.Ok? <==> now < iat + cfg.accessTokenExpireMinutes * SecondsPerMinute)
            && (r.Ok? ==> r.value == Claims(Some(sub), Some(role), Some(AccessType), Some(iat), t.claims.exp))
            && (r.Err? ==> r.error == TokenExpired)
  {
  }

  /** A refresh token verifies exactly until its expiry, carries no role,
      and has type "refresh". */
  lemma RefreshTokenRoundTrip(cfg: Config, sub: string, iat: int, now: int)
    ensures var t := CreateRefreshToken(cfg, sub, iat);
            var r := VerifyToken(t, cfg.secretKey, now);
            && t.claims.exp == Some(iat + cfg.refreshTokenExpireDays * SecondsPerDay)
            && (r.Ok? <==> now < iat + cfg.refreshTokenExpireDays * SecondsPerDay)
            && (r.Ok? ==> r.value == Claims(Some(sub), None, Some(RefreshType), Some(iat), t.claims.exp))
            && (r.Err? ==> r.error == TokenExpired)
  {
  }

  /** Changing any claim of an authentic token while keeping its signature
      makes it fail signature verification, whatever the time. */
  lemma TamperedTokenRejected(t: Jwt, key: string, forged: Claims, now: int)
    requires Authentic(t, key)
    requires forged != t.claims
    ensures VerifyToken(Jwt(forged, t.signature), key, now) == Err(CouldNotValidate)
  {
  }

  /** A token signed under another key never verifies. */
  lemma ForeignKeyRejected(claims: Claims, otherKey: string, key: string, now: int)
    requires otherKey != key
    ensures VerifyToken(Encode(claims, otherKey), key, now) == Err(CouldNotValidate)
  {
  }

  /** Type isolation: a refresh token never authenticates a user, even
      though verification itself accepts it. */
  lemma RefreshTokenNeverAuthenticates(users: map<string, User>, cfg: Config, sub: string, iat: int, now: int)
    ensures GetCurrentUser(users, CreateRefreshToken(cfg, sub, iat), cfg, now).Err?
  {
  }

  /** A fresh access token of an enabled, known user authenticates that user. */
  lemma AccessTokenAuthenticates(users: map<string, User>, cfg: Config, sub: string, iat: int, now: int)
    requires sub in users && !users[sub].disabled
    requires now < iat + cfg.accessTokenExpireMinutes * SecondsPerMinute
    ensures GetCurrentUser(users, CreateAccessToken(cfg, sub, users[sub].role, iat), cfg, now) == Ok(users[sub])
  {
    AccessTokenRoundTrip(cfg, sub, users[sub].role, iat, now);
  }

  /** With only the secret set, the lifetimes are the defaults: an access
      token verifies for exactly thirty minutes after issue and a refresh
      token for exactly seven days. */
  lemma DefaultLifetimes(secret: string, parseInt: IntParser, sub: string, role: string, iat: int, now: int)
    requires secret != ""
    ensures LoadConfig(Some(secret), None, None, parseInt).Ok?
    ensures var cfg := LoadConfig(Some(secret), None, None, parseInt).value;
            && (VerifyToken(CreateAccessToken(cfg, sub, role, iat), secret, now).Ok? <==> now < iat + 1800)
            && (VerifyToken(CreateRefreshToken(cfg, sub, iat), secret, now).Ok? <==> now < iat + 604800)
  {
    var cfg := LoadConfig(Some(secret), None, None, parseInt).value;
    AccessTokenRoundTrip(cfg, sub, role, iat, now);
    RefreshTokenRoundTrip(cfg, sub, iat, now);
  }

  /** Where the host runs on UTC or east of it, the as-written expiry
      comparison never fires before the library's own check, so the
      as-written chain behaves like the corrected one. */
  lemma AsWrittenHarmlessEastOfUtc(t: Jwt, key: string, now: int, localOffset: int)
    requires localOffset >= 0
    ensures VerifyTokenAsWritten(t, key, now, localOffset) == VerifyToken(t, key, now)
  {
  }

  /** West of UTC by more than the access lifetime, the as-written chain
      rejects a token issued this very second as expired, while the
      corrected chain accepts it. */
  lemma AsWrittenRejectsFreshTokenWestOfUtc(cfg: Config, sub: string, role: string, now: int, localOffset: int)
    requires cfg.accessTokenExpireMinutes > 0
    requires localOffset < -(cfg.accessTokenExpireMinutes * SecondsPerMinute)
    ensures VerifyTokenAsWritten(CreateAccessToken(cfg, sub, role, now), cfg.secretKey, now, localOffset) == Err(TokenExpired)
    ensures VerifyToken(CreateAccessToken(cfg, sub, role, now), cfg.secretKey, now).Ok?
  {
    var t := CreateAccessToken(cfg, sub, role, now);
    RequiredClaimsComplete(t.claims);
    AccessTokenRoundTrip(cfg, sub, role, now, now);
  }

  /** The concrete case: default lifetimes, a host at UTC-5. */
  lemma AsWrittenCounterexample(now: int)
    ensures var cfg := Config("secret", DefaultAccessTokenExpireMinutes, DefaultRefreshTokenExpireDays);
            var t := CreateAccessToken(cfg, "user", UserRole, now);
            && VerifyTokenAsWritten(t, cfg.secretKey, now, -5 * 3600) == Err(TokenExpired)
            && VerifyToken(t, cfg.secretKey, now) == Ok(t.claims)
  {
    var cfg := Config("secret", DefaultAccessTokenExpireMinutes, DefaultRefreshTokenExpireDays);
    AsWrittenRejectsFreshTokenWestOfUtc(cfg, "user", UserRole, now, -5 * 3600);
  }
}

=== FILE: auth_service.dfy ===
/** The authentication service's routes (auth-service/main.py): login,
    refresh, logout and registration, as transitions over the credential
    store, the pair of maps USERS and USER_PASSWORDS.

    Password hashing is salted and random, so a registration receives the
    hash it stores as an input; checking a password against a stored hash is
    the parameter `verifyPassword`, about which nothing is assumed except
    where a lemma states what it needs. */
module AuthService {
  import opened Wrappers
  import opened Auth

  /** USERS and USER_PASSWORDS. */
  datatype Store = Store(users: map<string, User>, passwords: map<string, string>)

  /** Both maps have the same keys, and each user is filed under its own name. */
  predicate Valid(s: Store) {
    && s.users.Keys == s.passwords.Keys
    && forall name :: name in s.users ==> s.users[name].username == name
  }

  /** The hard-coded seed: an enabled "admin" with role admin and an enabled
      "user" with role user, each with the hash of its demo password. */
  function SeedStore(adminHash: string, userHash: string): (s: Store)
    ensures Valid(s)
    ensures s.users.Keys == {"admin", "user"}
    ensures s.users["admin"].role == AdminRole && !s.users["admin"].disabled
    ensures s.users["user"].role == UserRole && !s.users["user"].disabled
    ensures s.passwords["admin"] == adminHash && s.passwords["user"] == userHash
  {
    Store(
      map["admin" := User("admin", "admin@example.com", AdminRole, false),
          "user" := User("user", "user@example.com", UserRole, false)],
      map["admin" := adminHash, "user" := userHash])
  }

  const BearerType: string := "bearer"

  /** The body of a successful login or refresh. */
  datatype TokenResponse = TokenResponse(accessToken: Jwt, refreshToken: Jwt, tokenType: string)

  /** create_access_token and create_refresh_token for one subject, at one instant. */
  function IssueTokens(cfg: Config, sub: string, role: string, now: int): (r: TokenResponse)
    ensures IssuedFor(r, cfg, sub, role, now)
  {
    TokenResponse(CreateAccessToken(cfg, sub, role, now), CreateRefreshToken(cfg, sub, now), BearerType)
  }

  /** What a token pair issued to `sub` with `role` at `now` carries: a signed
      access token with subject, role, type "access" and the access lifetime;
      a signed refresh token with only the subject, type "refresh" and the
      refresh lifetime; and the token type "bearer". */
  predicate IssuedFor(resp: TokenResponse, cfg: Config, sub: string, role: string, now: int) {
    && resp.tokenType == BearerType
    && Authentic(resp.accessToken, cfg.secretKey)
    && Authentic(resp.refreshToken, cfg.secretKey)
    && resp.accessToken.claims.sub == Some(sub)
    && resp.accessToken.claims.role == Some(role)
    && resp.accessToken.claims.typ == Some(AccessType)
    && resp.accessToken.claims.iat == Some(now)
    && resp.accessToken.claims.exp == Some(now + cfg.accessTokenExpireMinutes * SecondsPerMinute)
    && resp.refreshToken.claims.sub == Some(sub)
    && resp.refreshToken.claims.role == None
    && resp.refreshToken.claims.typ == Some(RefreshType)
    && resp.refreshToken.claims.iat == Some(now)
    && resp.refreshToken.claims.exp == Some(now + cfg.refreshTokenExpireDays * SecondsPerDay)
  }

  /** POST /token. Rejections, in order: unknown user, wrong password,
      disabled user. A user without a stored hash makes the lookup fail with
      an internal error, which a valid store rules out. */
  function Login(s: Store, cfg: Config, verifyPassword: (string, string) -> bool,
                 username: string, password: string, now: int): (r: Result<TokenResponse, AuthError>)
    ensures r.Ok? <==>
              && username in s.users && username in s.passwords
              && verifyPassword(password, s.passwords[username])
              && !s.users[username].disabled
    ensures username !in s.users ==> r == Err(IncorrectLogin)
    ensures (username in s.users && username in s.passwords && !verifyPassword(password, s.passwords[username]))
              ==> r == Err(IncorrectLogin)
    ensures (username in s.users && username in s.passwords && verifyPassword(password, s.passwords[username])
             && s.users[username].disabled) ==> r == Err(UserDisabled)
    ensures username in s.users && username !in s.passwords ==> r == Err(PasswordHashMissing)
    ensures Valid(s) ==> r != Err(PasswordHashMissing)
    ensures r.Ok? ==> IssuedFor(r.value, cfg, username, s.users[username].role, now)
  {
    if username !in s.users then Err(IncorrectLogin)
    else if username !in s.passwords then Err(PasswordHashMissing)
    else if !verifyPassword(password, s.passwords[username]) then Err(IncorrectLogin)
    else if s.users[username].disabled then Err(UserDisabled)
    else Ok(IssueTokens(cfg, username, s.users[username].role, now))
  }

  /** POST /refresh. The presented token must verify and be a refresh token
      of a known user; the new access token takes its role from the store,
      not from the presented token, and the disabled flag is not consulted. */
  function Refresh(s: Store, cfg: Config, presented: Jwt, now: int): (r: Result<TokenResponse, AuthError>)
    ensures r.Ok? <==>
              && VerifyToken(presented, cfg.secretKey, now).Ok?
              && presented.claims.typ == Some(RefreshType)
              && presented.claims.sub.value in s.users
    ensures r.Ok? ==> IssuedFor(r.value, cfg, presented.claims.sub.value, s.users[presented.claims.sub.value].role, now)
    ensures VerifyToken(presented, cfg.secretKey, now).Err? ==> r == Err(VerifyToken(presented, cfg.secretKey, now).error)
    ensures (VerifyToken(presented, cfg.secretKey, now).Ok? && presented.claims.typ != Some(RefreshType))
              ==> r == Err(InvalidTokenType)
    ensures (VerifyToken(presented, cfg.secretKey, now).Ok? && presented.claims.typ == Some(RefreshType)
             && presented.claims.sub.value !in s.users) ==> r == Err(InvalidAuthCredentials)
  {
    match VerifyToken(presented, cfg.secretKey, now)
    case Err(e) => Err(e)
    case Ok(c) =>
      if c.typ != Some(RefreshType) then Err(InvalidTokenType)
      else if c.sub.value !in s.users then Err(InvalidAuthCredentials)
      else Ok(IssueTokens(cfg, c.sub.value, s.users[c.sub.value].role, now))
  }

  /** POST /logout: a message and nothing else; no token is revoked. */
  function Logout(s: Store): (r: (Store, string))
    ensures r.0 == s
    ensures r.1 == "Successfully logged out"
  {
    (s, "Successfully logged out")
  }

  /** The registration body (UserCreate). */
  datatype RegisterRequest = RegisterRequest(username: string, email: string, role: string, password: string)

  /** The field constraints checked before the route runs: a username of 3 to
      50 characters, a role that is exactly "admin" or "user", a password of at
      least 8 characters. */
  predicate WellFormedRequest(req: RegisterRequest) {
    && 3 <= |req.username| <= 50
    && (req.role == AdminRole || req.role == UserRole)
    && |req.password| >= 8
  }

  /** The limits of each field, at their boundaries. */
  lemma RequestFieldLimits(email: string)
    ensures !WellFormedRequest(RegisterRequest("ab", email, UserRole, "password"))
    ensures WellFormedRequest(RegisterRequest("abc", email, UserRole, "password"))
    ensures !WellFormedRequest(RegisterRequest("abc", email, UserRole, "passwor"))
    ensures !WellFormedRequest(RegisterRequest("abc", email, "Admin", "password"))
    ensures !WellFormedRequest(RegisterRequest("abc", email, "administrator", "password"))
    ensures WellFormedRequest(RegisterRequest("abc", email, AdminRole, "password"))
    ensures forall name: string :: |name| == 50 ==> WellFormedRequest(RegisterRequest(name, email, UserRole, "password"))
    ensures forall name: string :: |name| == 51 ==> !WellFormedRequest(RegisterRequest(name, email, UserRole, "password"))
  {
  }

  datatype Registered = Registered(tokens: TokenResponse, message: string)

  /** What `EmailStr` makes of the submitted address (the domain lower-cased,
      surrounding whitespace and a display-name wrapper removed); the stored
      user holds this form, not the raw text. */
  type EmailNormalizer = string -> string

  /** POST /register: rejects a malformed body, then a taken username, each
      time leaving the store unchanged; otherwise files the new enabled user,
      with the normalised address, and the given password hash under the
      username and logs the user in. */
  function Register(s: Store, cfg: Config, req: RegisterRequest, normalizeEmail: EmailNormalizer, hashed: string, now: int)
    : (r: (Store, Result<Registered, AuthError>))
    ensures !WellFormedRequest(req) ==> r == (s, Err(InvalidRequest))
    ensures WellFormedRequest(req) && req.username in s.users ==> r == (s, Err(UsernameTaken))
    ensures r.1.Ok? <==> WellFormedRequest(req) && req.username !in s.users
    ensures r.1.Ok? ==>
              && r.0.users.Keys == s.users.Keys + {req.username}
              && r.0.passwords.Keys == s.passwords.Keys + {req.username}
              && r.0.users[req.username] == User(req.username, normalizeEmail(req.email), req.role, false)
              && r.0.passwords[req.username] == hashed
              && (forall n :: n in s.users ==> r.0.users[n] == s.users[n])
              && (forall n :: n in s.passwords && n != req.username ==> r.0.passwords[n] == s.passwords[n])
    ensures r.1.Ok? ==> IssuedFor(r.1.value.tokens, cfg, req.username, req.role, now)
    ensures r.1.Ok? ==> r.1.value.message == "Successfully registered as " + req.role
    ensures Valid(s) ==> Valid(r.0)
  {
    if !WellFormedRequest(req) then (s, Err(InvalidRequest))
    else if req.username in s.users then (s, Err(UsernameTaken))
    else
      var s' := Store(s.users[req.username := User(req.username, normalizeEmail(req.email), req.role, false)],
                      s.passwords[req.username := hashed]);
      (s', Ok(Registered(IssueTokens(cfg, req.username, req.role, now), "Successfully registered as " + req.role)))
  }

  // ---------------------------------------------------------------------
  // Properties
  // ---------------------------------------------------------------------

  /** Logging out changes no state: every token authenticates and refreshes
      afterwards exactly as before. */
  lemma LogoutKeepsTokensValid(s: Store, cfg: Config, t: Jwt, now: int)
    ensures Logout(s).0 == s
    ensures GetCurrentUser(Logout(s).0.users, t, cfg, now) == GetCurrentUser(s.users, t, cfg, now)
    ensures Refresh(Logout(s).0, cfg, t, now) == Refresh(s, cfg, t, now)
  {
  }

  /** The access token a login returns authenticates the logged-in user
      until it expires. */
  lemma LoginThenAuthenticate(s: Store, cfg: Config, verifyPassword: (string, string) -> bool,
                              username: string, password: string, iat: int, now: int)
    requires Valid(s)
    requires Login(s, cfg, verifyPassword, username, password, iat).Ok?
    requires now < iat + cfg.accessTokenExpireMinutes * SecondsPerMinute
    ensures GetCurrentUser(s.users, Login(s, cfg, verifyPassword, username, password, iat).value.accessToken, cfg, now)
            == Ok(s.users[username])
    ensures s.users[username].username == username
  {
    AccessTokenAuthenticates(s.users, cfg, username, iat, now);
  }

  /** A disabled user is refused at login even with the right password, but a
      refresh token it already holds still yields new tokens. */
  lemma DisabledUserStillRefreshes(s: Store, cfg: Config, verifyPassword: (string, string) -> bool,
                                   username: string, password: string, iat: int, now: int)
    requires username in s.users && username in s.passwords && s.users[username].disabled
    requires now < iat + cfg.refreshTokenExpireDays * SecondsPerDay
    ensures Login(s, cfg, verifyPassword, username, password, now).Err?
    ensures Refresh(s, cfg, CreateRefreshToken(cfg, username, iat), now).Ok?
  {
    RefreshTokenRoundTrip(cfg, username, iat, now);
  }

  /** An access token, however fresh, is never accepted by refresh. */
  lemma AccessTokenCannotRefresh(s: Store, cfg: Config, sub: string, role: string, iat: int, now: int)
    ensures Refresh(s, cfg, CreateAccessToken(cfg, sub, role, iat), now).Err?
  {
  }

  /** Registering with role "admin" is open to anyone: the access token it
      returns passes the admin guard. */
  lemma RegisterGrantsRequestedAdmin(s: Store, cfg: Config, req: RegisterRequest, normalizeEmail: EmailNormalizer,
                                     hashed: string, now: int)
    requires Valid(s) && WellFormedRequest(req) && req.username !in s.users
    requires req.role == AdminRole
    requires cfg.accessTokenExpireMinutes > 0
    ensures var r := Register(s, cfg, req, normalizeEmail, hashed, now);
            r.1.Ok? && CurrentAdmin(r.0.users, r.1.value.tokens.accessToken, cfg, now).Ok?
  {
    var r := Register(s, cfg, req, normalizeEmail, hashed, now);
    AccessTokenAuthenticates(r.0.users, cfg, req.username, now, now);
  }

  /** Register "alice" with password "password123" and role "user", log in,
      authenticate with the access token: the user is alice, and the admin
      guard refuses that user with 403. */
  lemma AliceScenario(s: Store, cfg: Config, verifyPassword: (string, string) -> bool, normalizeEmail: EmailNormalizer,
                      hashed: string, now: int)
    requires Valid(s) && "alice" !in s.users
    requires verifyPassword("password123", hashed)
    requires cfg.accessTokenExpireMinutes > 0
    ensures var req := RegisterRequest("alice", "alice@example.com", UserRole, "password123");
            var reg := Register(s, cfg, req, normalizeEmail, hashed, now);
            var login := Login(reg.0, cfg, verifyPassword, "alice", "password123", now);
            && reg.1.Ok?
            && login.Ok?
            && GetCurrentUser(reg.0.users, login.value.accessToken, cfg, now).Ok?
            && GetCurrentUser(reg.0.users, login.value.accessToken, cfg, now).value.username == "alice"
            && RequireAdmin(GetCurrentUser(reg.0.users, login.value.accessToken, cfg, now).value) == Err(AdminRequired)
  {
    var req := RegisterRequest("alice", "alice@example.com", UserRole, "password123");
    assert WellFormedRequest(req);
    var reg := Register(s, cfg, req, normalizeEmail, hashed, now);
    LoginThenAuthenticate(reg.0, cfg, verifyPassword, "alice", "password123", now, now);
  }
}

=== FILE: creation_service.dfy ===
/** The creation service (creation-service/main.py): an authenticated route
    that fetches the planet list from the planet service, picks the next id,
    and posts the new planet back. The two HTTP calls are inputs: the list
    the first call returned (or its failure) and the reply to the second. */
module CreationService {
  import opened Wrappers
  import opened Auth
  import opened PlanetService

  /** The request body: everything but the id. */
  datatype PlanetCreate = PlanetCreate(name: string, size: int, population: int)

  /** The planet service's answer to the POST: a status code, or no answer. */
  datatype Reply = Reply(status: int) | ConnectionFailed

  datatype CreationError = AuthFailed(cause: AuthError) | InternalError
  {
    function Status(): int {
      match this
      case AuthFailed(cause) => cause.Status()
      case InternalError => 500
    }
  }

  datatype Created = Created(message: string, planet: Planet)

  /** The largest id in a non-empty list. */
  function MaxId(ps: seq<Planet>): (m: int)
    requires |ps| > 0
    ensures forall i :: 0 <= i < |ps| ==> ps[i].id <= m
    ensures exists i :: 0 <= i < |ps| && ps[i].id == m
  {
    if |ps| == 1 then ps[0].id
    else
      var rest := MaxId(ps[1..]);
      assert forall i :: 1 <= i < |ps| ==> ps[i] == ps[1..][i - 1];
      if ps[0].id >= rest then ps[0].id else rest
  }

  /** The id for a new planet: 1 for an empty list, else one more than the largest id. */
  function NewId(ps: seq<Planet>): (r: int)
    ensures |ps| == 0 ==> r == 1
    ensures forall i :: 0 <= i < |ps| ==> ps[i].id < r
    ensures |ps| > 0 ==> exists i :: 0 <= i < |ps| && ps[i].id == r - 1
  {
    if |ps| == 0 then 1 else MaxId(ps) + 1
  }

  /** POST /create. The authentication dependency runs first; inside the
      handler every failure, including a non-200 reply from the planet
      service, ends as a 500. */
  function CreatePlanetRoute(users: map<string, User>, cfg: Config, now: int, bearer: Jwt,
                             req: PlanetCreate, listing: Option<seq<Planet>>, post: Reply)
    : (r: Result<Created, CreationError>)
    ensures GetCurrentUser(users, bearer, cfg, now).Err? ==>
              r == Err(AuthFailed(GetCurrentUser(users, bearer, cfg, now).error))
    ensures r.Ok? <==> GetCurrentUser(users, bearer, cfg, now).Ok? && listing.Some? && post == Reply(200)
    ensures GetCurrentUser(users, bearer, cfg, now).Ok? && r.Err? ==> r.error == InternalError && r.error.Status() == 500
    ensures r.Ok? ==>
              && r.value.planet.name == req.name
              && r.value.planet.size == req.size
              && r.value.planet.population == req.population
              && !HasId(listing.value, r.value.planet.id)
              && (listing.value == [] ==> r.value.planet.id == 1)
              && (listing.value != [] ==> exists i :: 0 <= i < |listing.value| && listing.value[i].id == r.value.planet.id - 1)
              && r.value.planet.id == NewId(listing.value)
              && r.value.message == "Planet " + req.name + " created successfully!"
  {
    match GetCurrentUser(users, bearer, cfg, now)
    case Err(e) => Err(AuthFailed(e))
    case Ok(_) =>
      match listing
      case None => Err(InternalError)
      case Some(planets) =>
        var created := Planet(NewId(planets), req.name, req.size, req.population);
        match post
        case ConnectionFailed => Err(InternalError)
        case Reply(status) =>
          if status == 200 then Ok(Created("Planet " + req.name + " created successfully!", created))
          else Err(InternalError)
  }

  /** The creation route wired to the planet service: the list it reads is
      the service's list, and the service appends what it is sent and
      answers 200. */
  function CreateThroughPlanetService(users: map<string, User>, cfg: Config, now: int, bearer: Jwt,
                                      req: PlanetCreate, db: PlanetDb)
    : (r: (PlanetDb, Result<Created, CreationError>))
    ensures r.1.Ok? <==> GetCurrentUser(users, bearer, cfg, now).Ok?
    ensures r.1.Err? ==> r.0 == db
    ensures r.1.Ok? ==> r.0 == CreatePlanet(db, r.1.value.planet) && !HasId(db.planets, r.1.value.planet.id)
  {
    var r := CreatePlanetRoute(users, cfg, now, bearer, req, Some(db.planets), Reply(200));
    match r
    case Err(e) => (db, Err(e))
    case Ok(c) => (CreatePlanet(db, c.planet), Ok(c))
  }

  /** Planets created through the creation service keep the ids unique. */
  lemma CreationKeepsIdsUnique(users: map<string, User>, cfg: Config, now: int, bearer: Jwt,
                               req: PlanetCreate, db: PlanetDb)
    requires UniqueIds(db.planets)
    ensures UniqueIds(CreateThroughPlanetService(users, cfg, now, bearer, req, db).0.planets)
  {
    var r := CreateThroughPlanetService(users, cfg, now, bearer, req, db);
    if r.1.Ok? {
      var ps := r.0.planets;
      var n := |db.planets|;
      forall i, j | 0 <= i < j < |ps| ensures ps[i].id != ps[j].id {
        assert ps[..n] == db.planets;
        if j < n {
          assert ps[i] == db.planets[i] && ps[j] == db.planets[j];
        } else {
          assert ps[i] == db.planets[i];
        }
      }
    }
  }
}

=== FILE: health_checker.dfy ===
/** The health checker (load_balancer/health_checker/checker.go): each probe
    of a server's health URL moves its healthy/unhealthy state through two
    counters and two thresholds. The HTTP request becomes its outcome, a
    transport error or a status code. */
module HealthChecker {
  import opened Pool

  datatype Probe = TransportError | Response(statusCode: int)

  const StatusOK: int := 200

  /** Everything a health update leaves alone. */
  predicate SameIdentity(a: Server, b: Server) {
    && a.id == b.id && a.name == b.name && a.protocol == b.protocol
    && a.host == b.host && a.port == b.port && a.url == b.url
    && a.lastHealthCheck == b.lastHealthCheck
    && a.healthyAfter == b.healthyAfter && a.unhealthyAfter == b.unhealthyAfter
    && a.healthCheckUrl == b.healthCheckUrl
  }

  /** updateServerUnhealthyStatus: a healthy server counts one more failure
      and turns unhealthy once its failures reach the threshold; an unhealthy
      server is left exactly as it is. */
  function UpdateUnhealthy(s: Server): (r: Server)
    ensures SameIdentity(r, s) && r.successCount == s.successCount
    ensures !s.isHealthy ==> r == s
    ensures s.isHealthy ==> r.failureCount == s.failureCount + 1
    ensures s.isHealthy ==> (r.isHealthy <==> s.failureCount + 1 < s.unhealthyAfter)
    ensures r.isHealthy ==> s.isHealthy
  {
    var counted := if s.isHealthy then s.(failureCount := s.failureCount + 1) else s;
    if counted.failureCount >= counted.unhealthyAfter && counted.isHealthy
    then counted.(isHealthy := false)
    else counted
  }

  /** updateServerHealthyStatus: always counts one more success; an
      unhealthy server whose successes reach the threshold turns healthy
      with both counters back at zero. It never makes a server unhealthy. */
  function UpdateHealthy(s: Server): (r: Server)
    ensures SameIdentity(r, s)
    ensures s.isHealthy ==> r.isHealthy
    ensures !s.isHealthy && s.successCount + 1 >= s.healthyAfter ==>
              r.isHealthy && r.successCount == 0 && r.failureCount == 0
    ensures !(!s.isHealthy && s.successCount + 1 >= s.healthyAfter) ==>
              r.isHealthy == s.isHealthy && r.successCount == s.successCount + 1 && r.failureCount == s.failureCount
  {
    var counted := s.(successCount := s.successCount + 1);
    if counted.successCount >= counted.healthyAfter && !counted.isHealthy
    then counted.(isHealthy := true, successCount := 0, failureCount := 0)
    else counted
  }

  /** doHTTPRequest: a transport error always counts as a failure; a 200 on
      an unhealthy server counts as a success; any other status on a healthy
      server counts as a failure; a 200 on a healthy server and a non-200 on
      an unhealthy one change nothing. */
  function DoHTTPRequest(s: Server, p: Probe): (r: Server)
    ensures SameIdentity(r, s)
    ensures p.TransportError? ==> r == UpdateUnhealthy(s)
    ensures p.Response? && p.statusCode == StatusOK && !s.isHealthy ==> r == UpdateHealthy(s)
    ensures p.Response? && p.statusCode != StatusOK && s.isHealthy ==> r == UpdateUnhealthy(s)
    ensures p.Response? && (p.statusCode == StatusOK) == s.isHealthy ==> r == s
  {
    match p
    case TransportError => UpdateUnhealthy(s)
    case Response(code) =>
      var afterOk := if code == StatusOK && !s.isHealthy then UpdateHealthy(s) else s;
      if code != StatusOK && afterOk.isHealthy then UpdateUnhealthy(afterOk) else afterOk
  }

  /** The loop body for one server: probed when it has a health URL,
      skipped otherwise. */
  function CheckServer(s: Server, p: Probe): (r: Server)
    ensures SameIdentity(r, s)
    ensures s.healthCheckUrl == "" ==> r == s
    ensures s.healthCheckUrl != "" ==> r == DoHTTPRequest(s, p)
  {
    if s.healthCheckUrl == "" then s else DoHTTPRequest(s, p)
  }

  /** One pass of the checking loop over the pool: servers without a health
      URL are skipped, every other one is probed with the outcome given for
      its position. */
  function Sweep(p: ServerPool, outcome: nat -> Probe): (r: ServerPool)
    ensures |r.servers| == |p.servers|
    ensures forall i :: 0 <= i < |p.servers| ==> SameIdentity(r.servers[i], p.servers[i])
    ensures forall i :: 0 <= i < |p.servers| && p.servers[i].healthCheckUrl == "" ==> r.servers[i] == p.servers[i]
    ensures forall i :: 0 <= i < |p.servers| && p.servers[i].healthCheckUrl != "" ==>
              r.servers[i] == DoHTTPRequest(p.servers[i], outcome(i))
  {
    var checked := seq(|p.servers|, i requires 0 <= i < |p.servers| => CheckServer(p.servers[i], outcome(i)));
    assert forall i :: 0 <= i < |p.servers| ==> checked[i] == CheckServer(p.servers[i], outcome(i));
    ServerPool(checked)
  }

  // ---------------------------------------------------------------------
  // Sequences of probes
  // ---------------------------------------------------------------------

  /** Probing the same server with each outcome in turn. */
  function RunProbes(s: Server, probes: seq<Probe>): Server
    decreases |probes|
  {
    if |probes| == 0 then s else RunProbes(DoHTTPRequest(s, probes[0]), probes[1..])
  }

  predicate IsFailure(p: Probe) {
    p.TransportError? || p.statusCode != StatusOK
  }

  function Failures(probes: seq<Probe>): nat
    decreases |probes|
  {
    if |probes| == 0 then 0 else (if IsFailure(probes[0]) then 1 else 0) + Failures(probes[1..])
  }

  function Successes(probes: seq<Probe>): nat
    decreases |probes|
  {
    if |probes| == 0 then 0 else (if IsFailure(probes[0]) then 0 else 1) + Successes(probes[1..])
  }

  /** Running two traces one after the other. */
  lemma {:induction false} RunProbesAppend(s: Server, a: seq<Probe>, b: seq<Probe>)
    ensures RunProbes(s, a + b) == RunProbes(RunProbes(s, a), b)
    decreases |a|
  {
    if |a| > 0 {
      assert (a + b)[0] == a[0];
      assert (a + b)[1..] == a[1..] + b;
      RunProbesAppend(DoHTTPRequest(s, a[0]), a[1..], b);
    } else {
      assert a + b == b;
    }
  }

  /** While a server stays healthy, successes never reset its failure
      count: failures accumulate across any interleaving of 200 replies. */
  lemma {:induction false} FailuresAccumulateWhileHealthy(s: Server, probes: seq<Probe>)
    requires s.isHealthy
    requires s.failureCount + Failures(probes) < s.unhealthyAfter
    ensures RunProbes(s, probes) == s.(failureCount := s.failureCount + Failures(probes))
    decreases |probes|
  {
    if |probes| > 0 {
      var next := DoHTTPRequest(s, probes[0]);
      FailuresAccumulateWhileHealthy(next, probes[1..]);
    }
  }

  /** The failure that brings the accumulated count to the threshold turns
      a healthy server unhealthy, however many successes came in between. */
  lemma FailureAtThresholdMarksUnhealthy(s: Server, probes: seq<Probe>, last: Probe)
    requires s.isHealthy && IsFailure(last)
    requires s.failureCount + Failures(probes) + 1 == s.unhealthyAfter
    ensures !RunProbes(s, probes + [last]).isHealthy
    ensures RunProbes(s, probes + [last]).failureCount == s.unhealthyAfter
  {
    FailuresAccumulateWhileHealthy(s, probes);
    RunProbesAppend(s, probes, [last]);
  }

  /** While a server stays unhealthy, failures change nothing, so its
      successes accumulate across any interleaving of failed probes. */
  lemma {:induction false} SuccessesAccumulateWhileUnhealthy(s: Server, probes: seq<Probe>)
    requires !s.isHealthy
    requires s.successCount + Successes(probes) < s.healthyAfter
    ensures RunProbes(s, probes) == s.(successCount := s.successCount + Successes(probes))
    decreases |probes|
  {
    if |probes| > 0 {
      var next := DoHTTPRequest(s, probes[0]);
      SuccessesAccumulateWhileUnhealthy(next, probes[1..]);
    }
  }

  /** The 200 that brings the accumulated successes to the threshold makes
      an unhealthy server healthy with both counters reset. */
  lemma SuccessAtThresholdMarksHealthy(s: Server, probes: seq<Probe>)
    requires !s.isHealthy
    requires s.successCount + Successes(probes) + 1 == s.healthyAfter
    ensures RunProbes(s, probes + [Response(StatusOK)]) == s.(isHealthy := true, successCount := 0, failureCount := 0)
  {
    SuccessesAccumulateWhileUnhealthy(s, probes);
    RunProbesAppend(s, probes, [Response(StatusOK)]);
  }

  // ---------------------------------------------------------------------
  // Counter bounds
  // ---------------------------------------------------------------------

  /** The counters stay within the thresholds: a healthy server has fewer
      failures than its unhealthy threshold, and no server holds as many
      successes as its healthy threshold. */
  predicate CountersBounded(s: Server) {
    && s.healthyAfter >= 1 && s.unhealthyAfter >= 1
    && 0 <= s.failureCount <= s.unhealthyAfter
    && 0 <= s.successCount < s.healthyAfter
    && (s.isHealthy ==> s.failureCount < s.unhealthyAfter)
  }

  /** Every probe keeps the counters bounded, so from a start such as the
      servers main.go configures they never grow past the thresholds, and
      the 64-bit counters of the source cannot overflow. */
  lemma ProbeKeepsCountersBounded(s: Server, p: Probe)
    requires CountersBounded(s)
    ensures CountersBounded(DoHTTPRequest(s, p))
  {
  }

  lemma {:induction false} RunKeepsCountersBounded(s: Server, probes: seq<Probe>)
    requires CountersBounded(s)
    ensures CountersBounded(RunProbes(s, probes))
    decreases |probes|
  {
    if |probes| > 0 {
      ProbeKeepsCountersBounded(s, probes[0]);
      RunKeepsCountersBounded(DoHTTPRequest(s, probes[0]), probes[1..]);
    }
  }
}

=== FILE: integrity_checker.dfy ===
/** The file integrity checker (roadmapsh/file_integrity_checker/integrity-checker.py):
    a store of digests keyed by path, written by `init` and `update` and
    compared against by `check`. The file system enters as the list of
    paths the target expands to and a digest function (None for a file
    that cannot be read); the JSON store file enters as its contents, None
    when it does not exist. */
module IntegrityChecker {
  import opened Wrappers
  import opened Sequences

  type Path = string
  type Digest = string
  type HashStore = map<Path, Digest>

  /** The digest of each path as read now; None when reading fails. */
  type Reader = Path -> Option<Digest>

  /** Python's `if h:` on a digest: present and not the empty string. */
  predicate Recorded(h: Option<Digest>) {
    h.Some? && |h.value| > 0
  }

  /** load_hashes: the saved store, or an empty one when there is none. */
  function LoadHashes(saved: Option<HashStore>): (r: HashStore)
    ensures saved.None? ==> r == map[]
    ensures saved.Some? ==> r == saved.value
  {
    if saved.Some? then saved.value else map[]
  }

  /** The loop shared by init_hashes and update_hash: every listed file
      whose digest is recorded gets that digest; every other entry of the
      store is kept. */
  function Record(store: HashStore, files: seq<Path>, hashOf: Reader): (r: HashStore)
    ensures forall f :: f in r <==> f in store || (f in files && Recorded(hashOf(f)))
    ensures forall f :: f in files && Recorded(hashOf(f)) ==> r[f] == hashOf(f).value
    ensures forall f :: f in store && !(f in files && Recorded(hashOf(f))) ==> r[f] == store[f]
    decreases |files|
  {
    if |files| == 0 then store
    else
      var before := Record(store, files[..|files| - 1], hashOf);
      var f := files[|files| - 1];
      assert forall g :: g in files <==> g in files[..|files| - 1] || g == f by {
        assert files == files[..|files| - 1] + [f];
      }
      var h := hashOf(f);
      if Recorded(h) then before[f := h.value] else before
  }

  /** init_hashes: a fresh store holding exactly the listed files that
      could be read, each with its digest. */
  function InitHashes(files: seq<Path>, hashOf: Reader): (r: HashStore)
    ensures forall f :: f in r <==> f in files && Recorded(hashOf(f))
    ensures forall f :: f in r ==> Recorded(hashOf(f)) && r[f] == hashOf(f).value
  {
    Record(map[], files, hashOf)
  }

  /** update_hash: the saved store with a fresh digest for every listed
      file that could be read; every other entry is kept as it was. */
  function UpdateHashes(saved: Option<HashStore>, files: seq<Path>, hashOf: Reader): (r: HashStore)
    ensures forall f :: f in r <==> f in LoadHashes(saved) || (f in files && Recorded(hashOf(f)))
    ensures forall f :: f in files && Recorded(hashOf(f)) ==> r[f] == hashOf(f).value
    ensures forall f :: f in LoadHashes(saved) && !(f in files && Recorded(hashOf(f))) ==>
              r[f] == LoadHashes(saved)[f]
  {
    Record(LoadHashes(saved), files, hashOf)
  }

  /** What check_files sorts the listed files into. */
  datatype Report = Report(modified: seq<Path>, unmodified: seq<Path>)

  /** A file with a stored digest is modified exactly when its current
      digest is not that one, a failed read included. */
  predicate Modified(stored: HashStore, hashOf: Reader, f: Path)
    requires f in stored
  {
    hashOf(f) != Some(stored[f])
  }

  /** The listed files that have a stored digest, in order. */
  function Tracked(stored: HashStore, files: seq<Path>): (r: seq<Path>)
    ensures forall f :: f in r <==> f in files && f in stored
    ensures IsSubsequence(r, files)
    decreases |files|
  {
    if |files| == 0 then []
    else
      var init := files[..|files| - 1];
      var f := files[|files| - 1];
      var before := Tracked(stored, init);
      assert files == init + [f];
      if f in stored then
        KeepLast(before, init, f);
        before + [f]
      else
        SkipLast(before, init, f);
        before
  }

  /** One of check_files' two lists: the listed files with a stored digest
      whose modified status is `modified`, in the order they were listed. */
  function Select(stored: HashStore, files: seq<Path>, hashOf: Reader, modified: bool): (r: seq<Path>)
    ensures forall f :: f in r <==> f in files && f in stored && Modified(stored, hashOf, f) == modified
    ensures IsSubsequence(r, files)
    decreases |files|
  {
    if |files| == 0 then []
    else
      var init := files[..|files| - 1];
      var f := files[|files| - 1];
      var before := Select(stored, init, hashOf, modified);
      assert files == init + [f];
      if f in stored && Modified(stored, hashOf, f) == modified then
        KeepLast(before, init, f);
        before + [f]
      else
        SkipLast(before, init, f);
        before
  }

  /** Every tracked file lands in exactly one of the two lists. */
  lemma {:induction false} SelectSplitsTracked(stored: HashStore, files: seq<Path>, hashOf: Reader)
    ensures |Select(stored, files, hashOf, true)| + |Select(stored, files, hashOf, false)| == |Tracked(stored, files)|
    decreases |files|
  {
    if |files| > 0 {
      SelectSplitsTracked(stored, files[..|files| - 1], hashOf);
    }
  }

  /** check_files: files without a stored digest land in neither list; the
      others are split, in order, into modified and unmodified. */
  function CheckFiles(stored: HashStore, files: seq<Path>, hashOf: Reader): (r: Report)
    ensures forall f :: f in r.modified <==> f in files && f in stored && Modified(stored, hashOf, f)
    ensures forall f :: f in r.unmodified <==> f in files && f in stored && !Modified(stored, hashOf, f)
    ensures forall f :: f in files && f !in stored ==> f !in r.modified && f !in r.unmodified
    ensures IsSubsequence(r.modified, files) && IsSubsequence(r.unmodified, files)
    ensures |r.modified| + |r.unmodified| == |Tracked(stored, files)|
  {
    SelectSplitsTracked(stored, files, hashOf);
    Report(Select(stored, files, hashOf, true), Select(stored, files, hashOf, false))
  }

  /** The command-line entry point: `check` and `-check` are the same. */
  datatype Command = Init | Check | Update | DashCheck

  /** One run of the tool: the store file afterwards and, for a check, the
      report. A check never writes the store file. */
  function Run(cmd: Command, saved: Option<HashStore>, files: seq<Path>, hashOf: Reader)
    : (r: (Option<HashStore>, Option<Report>))
    ensures cmd == Check || cmd == DashCheck ==>
              r.0 == saved && r.1 == Some(CheckFiles(LoadHashes(saved), files, hashOf))
    ensures cmd == Init ==> r.0 == Some(InitHashes(files, hashOf)) && r.1.None?
    ensures cmd == Update ==> r.0 == Some(UpdateHashes(saved, files, hashOf)) && r.1.None?
  {
    match cmd
    case Init => (Some(InitHashes(files, hashOf)), None)
    case Check => (saved, Some(CheckFiles(LoadHashes(saved), files, hashOf)))
    case DashCheck => (saved, Some(CheckFiles(LoadHashes(saved), files, hashOf)))
    case Update => (Some(UpdateHashes(saved, files, hashOf)), None)
  }

  /** A store that holds the current digest of every listed file makes the
      check report all of them unmodified, in order. */
  lemma {:induction false} CheckAgainstCurrentDigests(stored: HashStore, files: seq<Path>, hashOf: Reader)
    requires forall f :: f in files ==> f in stored && hashOf(f) == Some(stored[f])
    ensures CheckFiles(stored, files, hashOf) == Report([], files)
    decreases |files|
  {
    if |files| > 0 {
      var init := files[..|files| - 1];
      assert files == init + [files[|files| - 1]];
      CheckAgainstCurrentDigests(stored, init, hashOf);
    }
  }

  /** After an update over files that can all be read, an immediate check
      of the same unchanged files reports every one of them unmodified. One
      reader serves both runs, so the store file, which the update rewrites,
      is not among them. */
  lemma UpdateThenCheckIsClean(saved: Option<HashStore>, files: seq<Path>, hashOf: Reader)
    requires forall f :: f in files ==> Recorded(hashOf(f))
    ensures Run(Check, Run(Update, saved, files, hashOf).0, files, hashOf).1 == Some(Report([], files))
  {
    CheckAgainstCurrentDigests(UpdateHashes(saved, files, hashOf), files, hashOf);
  }

  /** The same holds right after init. */
  lemma InitThenCheckIsClean(saved: Option<HashStore>, files: seq<Path>, hashOf: Reader)
    requires forall f :: f in files ==> Recorded(hashOf(f))
    ensures Run(Check, Run(Init, saved, files, hashOf).0, files, hashOf).1 == Some(Report([], files))
  {
    CheckAgainstCurrentDigests(InitHashes(files, hashOf), files, hashOf);
  }

  /** A file recorded at init whose contents then change (its digest is
      different when read again) is reported modified, and so is one that
      can no longer be read. */
  lemma ChangedFileIsReported(files: seq<Path>, before: Reader, after: Reader, f: Path)
    requires f in files && Recorded(before(f))
    requires after(f) != before(f)
    ensures f in Run(Check, Run(Init, None, files, before).0, files, after).1.value.modified
  {
  }

  /** The store file itself may be among the listed files (`update .` run
      from the watched directory). Update records the digest of its old
      contents and then rewrites it, so its digest when read again differs
      and the next check reports it modified. */
  lemma UpdateReportsOwnStoreFile(saved: Option<HashStore>, files: seq<Path>, before: Reader, after: Reader, storePath: Path)
    requires storePath in files && Recorded(before(storePath))
    requires after(storePath) != before(storePath)
    ensures storePath in Run(Check, Run(Update, saved, files, before).0, files, after).1.value.modified
  {
  }

  /** A file that could not be read at init is not tracked: a later check
      reports it in neither list, whatever its contents by then. */
  lemma UnreadableAtInitIsUntracked(files: seq<Path>, before: Reader, after: Reader, f: Path)
    requires f in files && !Recorded(before(f))
    ensures var rep := Run(Check, Run(Init, None, files, before).0, files, after).1.value;
            f !in rep.modified && f !in rep.unmodified
  {
  }
}

=== FILE: planet_service.dfy ===
/** The planet service (planet-service/main.py): an in-memory list of planets
    and a death toll, with lookup, deletion, creation and reset. Deletion is
    guarded by authentication, reset by the admin role; creation is not
    guarded at all. */
module PlanetService {
  import opened Wrappers
  import opened Auth

  datatype Planet = Planet(id: int, name: string, size: int, population: int)

  /** The module-level state: the list `planets` and the counter `death_toll`. */
  datatype PlanetDb = PlanetDb(planets: seq<Planet>, deathToll: int)

  const InitialPlanets: seq<Planet> := [
    Planet(1, "Earth", 12742, 12000000000),
    Planet(2, "Mars", 6779, 5000000),
    Planet(3, "Jupiter", 139820, 20000000),
    Planet(4, "Saturn", 116460, 20000000),
    Planet(5, "Venus", 12104, 20000000),
    Planet(6, "Mercury", 4879, 1000),
    Planet(7, "Uranus", 50724, 20000000),
    Planet(8, "Neptune", 49244, 20000000),
    Planet(9, "Pluto", 2376, 500),
    Planet(10, "Tatooine", 10465, 500000),
    Planet(11, "Coruscant", 12742, 20000000000),
    Planet(12, "Arrakis", 12000, 20000000),
    Planet(13, "Vulcan", 15000, 8000000000),
    Planet(14, "Krypton", 18000, 20000000),
    Planet(15, "Pandora", 11447, 20000000),
    Planet(16, "Gallifrey", 25000, 5000000000),
    Planet(17, "Ego", 30000, 1),
    Planet(18, "Xandar", 14000, 3000000000),
    Planet(19, "Knowhere", 5000, 5000000),
    Planet(20, "Sakaar", 20000, 1000000000),
    Planet(21, "Asgard", 22000, 20000000),
    Planet(22, "Naboo", 12120, 6000000000),
    Planet(23, "Endor", 4900, 10000000),
    Planet(24, "Hoth", 7200, 200000000),
    Planet(25, "Dagobah", 8900, 20000000)
  ]

  /** The state at process start. */
  const StartDb: PlanetDb := PlanetDb(InitialPlanets, 0)

  datatype PlanetError = PlanetNotFound | Unauthorized(cause: AuthError)
  {
    function Status(): int {
      match this
      case PlanetNotFound => 404
      case Unauthorized(cause) => cause.Status()
    }
  }

  predicate HasId(ps: seq<Planet>, id: int) {
    exists i :: 0 <= i < |ps| && ps[i].id == id
  }

  predicate UniqueIds(ps: seq<Planet>) {
    forall i, j :: 0 <= i < j < |ps| ==> ps[i].id != ps[j].id
  }

  predicate NonNegativePopulations(ps: seq<Planet>) {
    forall i :: 0 <= i < |ps| ==> ps[i].population >= 0
  }

  /** The position of the first planet with the given id, scanning from the front. */
  function FirstIndex(ps: seq<Planet>, id: int): (r: Option<nat>)
    ensures r.Some? ==> r.value < |ps| && ps[r.value].id == id
    ensures r.Some? ==> forall j :: 0 <= j < r.value ==> ps[j].id != id
    ensures r.None? <==> !HasId(ps, id)
  {
    if |ps| == 0 then None
    else if ps[0].id == id then Some(0)
    else
      match FirstIndex(ps[1..], id)
      case None =>
        assert forall i :: 1 <= i < |ps| ==> ps[i] == ps[1..][i - 1];
        None
      case Some(k) => Some(k + 1)
  }

  /** GET /planets/{id}: the first planet with that id, or 404. */
  function GetPlanet(db: PlanetDb, id: int): (r: Result<Planet, PlanetError>)
    ensures r.Ok? <==> HasId(db.planets, id)
    ensures r.Ok? ==> exists i :: 0 <= i < |db.planets| && db.planets[i] == r.value && r.value.id == id
                                  && forall j :: 0 <= j < i ==> db.planets[j].id != id
    ensures r.Err? ==> r.error == PlanetNotFound
  {
    match FirstIndex(db.planets, id)
    case None => Err(PlanetNotFound)
    case Some(i) => Ok(db.planets[i])
  }

  /** DELETE /planets/{id} once the caller is authenticated: the first planet
      with that id leaves the list and its population is added to the death
      toll, which is returned; an absent id is a 404 that changes nothing. */
  function DeletePlanet(db: PlanetDb, id: int): (r: (PlanetDb, Result<int, PlanetError>))
    ensures r.1.Ok? <==> GetPlanet(db, id).Ok?
    ensures r.1.Err? ==> r.0 == db && r.1.error == PlanetNotFound
    ensures r.1.Ok? ==>
              var gone := GetPlanet(db, id).value;
              && r.0.deathToll == db.deathToll + gone.population
              && r.1.value == r.0.deathToll
              && |r.0.planets| == |db.planets| - 1
              && multiset(r.0.planets) + multiset{gone} == multiset(db.planets)
    ensures r.1.Ok? ==>
              var i := FirstIndex(db.planets, id).value;
              r.0.planets[..i] == db.planets[..i] && r.0.planets[i..] == db.planets[i + 1..]
  {
    match FirstIndex(db.planets, id)
    case None => (db, Err(PlanetNotFound))
    case Some(i) =>
      var ps := db.planets[..i] + db.planets[i + 1..];
      assert db.planets == db.planets[..i] + [db.planets[i]] + db.planets[i + 1..];
      var toll := db.deathToll + db.planets[i].population;
      (PlanetDb(ps, toll), Ok(toll))
  }

  /** POST /planets: appends the planet as given, with no check on its id or
      values, and leaves the death toll alone. */
  function CreatePlanet(db: PlanetDb, p: Planet): (r: PlanetDb)
    ensures |r.planets| == |db.planets| + 1
    ensures r.planets[..|db.planets|] == db.planets && r.planets[|db.planets|] == p
    ensures r.deathToll == db.deathToll
  {
    PlanetDb(db.planets + [p], db.deathToll)
  }

  /** POST /planets/reset once the caller is an admin: the list goes back to
      the initial planets; the death toll is kept. */
  function ResetPlanets(db: PlanetDb): (r: PlanetDb)
    ensures r.planets == InitialPlanets && r.deathToll == db.deathToll
  {
    PlanetDb(InitialPlanets, db.deathToll)
  }

  /** The delete route with its authentication dependency: a caller that
      fails authentication is refused and nothing changes. */
  function DeletePlanetRoute(users: map<string, User>, cfg: Config, now: int, bearer: Jwt, db: PlanetDb, id: int)
    : (r: (PlanetDb, Result<int, PlanetError>))
    ensures GetCurrentUser(users, bearer, cfg, now).Err? ==>
              r == (db, Err(Unauthorized(GetCurrentUser(users, bearer, cfg, now).error)))
    ensures GetCurrentUser(users, bearer, cfg, now).Ok? ==> r == DeletePlanet(db, id)
  {
    match GetCurrentUser(users, bearer, cfg, now)
    case Err(e) => (db, Err(Unauthorized(e)))
    case Ok(_) => DeletePlanet(db, id)
  }

  /** The reset route with its admin dependency: anyone but an authenticated
      admin is refused and nothing changes. */
  function ResetRoute(users: map<string, User>, cfg: Config, now: int, bearer: Jwt, db: PlanetDb)
    : (r: (PlanetDb, Result<string, PlanetError>))
    ensures r.1.Ok? <==> CurrentAdmin(users, bearer, cfg, now).Ok?
    ensures r.1.Err? ==> r.0 == db && r.1.error == Unauthorized(CurrentAdmin(users, bearer, cfg, now).error)
    ensures r.1.Ok? ==> r.0 == ResetPlanets(db)
  {
    match CurrentAdmin(users, bearer, cfg, now)
    case Err(e) => (db, Err(Unauthorized(e)))
    case Ok(_) => (ResetPlanets(db), Ok("Planets reset to initial state"))
  }

  // ---------------------------------------------------------------------
  // Properties
  // ---------------------------------------------------------------------

  /** The initial list holds the ids 1 to 25 in order, with no negative population. */
  lemma InitialPlanetsWellFormed()
    ensures |InitialPlanets| == 25
    ensures forall i :: 0 <= i < |InitialPlanets| ==> InitialPlanets[i].id == i + 1
    ensures UniqueIds(InitialPlanets) && NonNegativePopulations(InitialPlanets)
  {
    InitialIdsAscending();
    InitialPopulationsNonNegative();
    AscendingIdsUnique(InitialPlanets);
  }

  lemma InitialIdsAscending()
    ensures |InitialPlanets| == 25
    ensures forall i :: 0 <= i < |InitialPlanets| ==> InitialPlanets[i].id == i + 1
  {
  }

  lemma InitialPopulationsNonNegative()
    ensures NonNegativePopulations(InitialPlanets)
  {
  }

  /** Ids that count up from 1 by position are unique. */
  lemma AscendingIdsUnique(ps: seq<Planet>)
    requires forall i :: 0 <= i < |ps| ==> ps[i].id == i + 1
    ensures UniqueIds(ps)
  {
  }

  /** With no negative population in the list, deletion never lowers the toll. */
  lemma DeathTollNeverDecreases(db: PlanetDb, id: int)
    requires NonNegativePopulations(db.planets)
    ensures DeletePlanet(db, id).0.deathToll >= db.deathToll
    ensures NonNegativePopulations(DeletePlanet(db, id).0.planets)
  {
    var r := DeletePlanet(db, id);
    if r.1.Ok? {
      var i := FirstIndex(db.planets, id).value;
      forall k | 0 <= k < |r.0.planets| ensures r.0.planets[k].population >= 0 {
        if k < i {
          assert r.0.planets[k] == r.0.planets[..i][k];
        } else {
          assert r.0.planets[k] == r.0.planets[i..][k - i] == db.planets[k + 1];
        }
      }
    }
  }

  /** Because creation accepts any population, a created planet with a
      negative population lowers the toll when it is deleted. */
  lemma NegativePopulationLowersToll()
    ensures var db := CreatePlanet(StartDb, Planet(26, "Antimatter", 1, -5));
            DeletePlanet(db, 26).0.deathToll == -5 < StartDb.deathToll
  {
    var db := CreatePlanet(StartDb, Planet(26, "Antimatter", 1, -5));
    InitialPlanetsWellFormed();
    assert db.planets[25].id == 26;
    assert HasId(db.planets, 26);
    var i := FirstIndex(db.planets, 26).value;
    assert i == 25;
  }

  /** Creation does not check for duplicates: posting a planet with an id
      already present leaves two planets with that id. */
  lemma CreateAllowsDuplicateIds(db: PlanetDb, p: Planet)
    requires HasId(db.planets, p.id)
    ensures !UniqueIds(CreatePlanet(db, p).planets)
  {
    var i :| 0 <= i < |db.planets| && db.planets[i].id == p.id;
    var r := CreatePlanet(db, p);
    assert r.planets[i] == db.planets[i];
    assert r.planets[|db.planets|] == p;
  }

  /** With unique ids, deleting an id removes it for good and keeps the ids unique. */
  lemma DeleteRemovesUniqueId(db: PlanetDb, id: int)
    requires UniqueIds(db.planets)
    ensures !HasId(DeletePlanet(db, id).0.planets, id)
    ensures UniqueIds(DeletePlanet(db, id).0.planets)
  {
    var r := DeletePlanet(db, id);
    if r.1.Ok? {
      var i := FirstIndex(db.planets, id).value;
      var ps := r.0.planets;
      assert forall k :: 0 <= k < |ps| ==> ps[k] == db.planets[if k < i then k else k + 1] by {
        forall k | 0 <= k < |ps| ensures ps[k] == db.planets[if k < i then k else k + 1] {
          if k < i {
            assert ps[k] == ps[..i][k];
          } else {
            assert ps[k] == ps[i..][k - i];
          }
        }
      }
    }
  }

  /** Reset restores the initial list whatever happened before, and the
      deaths counted so far stay counted. */
  lemma ResetAfterDeleteKeepsToll(db: PlanetDb, id: int)
    ensures ResetPlanets(DeletePlanet(db, id).0) == PlanetDb(InitialPlanets, DeletePlanet(db, id).0.deathToll)
    ensures GetPlanet(ResetPlanets(DeletePlanet(db, id).0), 1) == Ok(InitialPlanets[0])
  {
    InitialPlanetsWellFormed();
    assert InitialPlanets[0].id == 1;
    assert HasId(InitialPlanets, 1);
  }

  /** An ordinary user's valid access token does not pass the reset guard. */
  lemma UserCannotReset(users: map<string, User>, cfg: Config, now: int, iat: int, name: string, db: PlanetDb)
    requires name in users && !users[name].disabled && users[name].role == UserRole
    requires now < iat + cfg.accessTokenExpireMinutes * SecondsPerMinute
    ensures var r := ResetRoute(users, cfg, now, CreateAccessToken(cfg, name, UserRole, iat), db);
            r.0 == db && r.1 == Err(Unauthorized(AdminRequired)) && r.1.error.Status() == 403
  {
    AccessTokenAuthenticates(users, cfg, name, iat, now);
  }

  /** A refresh token never gets a planet deleted. */
  lemma RefreshTokenCannotDelete(users: map<string, User>, cfg: Config, now: int, iat: int, name: string, db: PlanetDb, id: int)
    ensures DeletePlanetRoute(users, cfg, now, CreateRefreshToken(cfg, name, iat), db, id).0 == db
  {
    RefreshTokenNeverAuthenticates(users, cfg, name, iat, now);
  }
}

=== FILE: pool.dfy ===
/** The load balancer's server record and server pool (load_balancer/pool/pool.go).
    The pool is an append-only sequence; references to servers become the
    server values themselves, each added server being a distinct record. */
module Pool {
  import opened Sequences

  /** A backend server: the fields main.go fills in, plus the two counters
      the health checker keeps. Times are integer seconds. */
  datatype Server = Server(
    id: string,
    name: string,
    protocol: string,
    host: string,
    port: int,
    url: string,
    isHealthy: bool,
    lastHealthCheck: int,
    healthyAfter: int,
    unhealthyAfter: int,
    healthCheckUrl: string,
    failureCount: int,
    successCount: int)

  datatype ServerPool = ServerPool(servers: seq<Server>)

  /** NewServerPool: an empty pool. */
  function NewServerPool(): (p: ServerPool)
    ensures |p.servers| == 0
  {
    ServerPool([])
  }

  /** AddServer: the server goes at the end and the ones already there keep
      their places. The Go method's error result is always nil. */
  function AddServer(p: ServerPool, s: Server): (r: ServerPool)
    ensures |r.servers| == |p.servers| + 1
    ensures r.servers[..|p.servers|] == p.servers
    ensures r.servers[|p.servers|] == s
  {
    ServerPool(p.servers + [s])
  }

  /** GetServers: the pool's own list, every server in insertion order. */
  function GetServers(p: ServerPool): (r: seq<Server>)
    ensures |r| == |p.servers| && forall i :: 0 <= i < |r| ==> r[i] == p.servers[i]
  {
    p.servers
  }

  /** Adding a list of servers one after another, as the start-up loop does. */
  function AddAll(p: ServerPool, xs: seq<Server>): ServerPool
    decreases |xs|
  {
    if |xs| == 0 then p else AddAll(AddServer(p, xs[0]), xs[1..])
  }

  /** GetServers returns what was added, in the order it was added, after
      what the pool already held. */
  lemma {:induction false} AddAllInOrder(p: ServerPool, xs: seq<Server>)
    ensures GetServers(AddAll(p, xs)) == p.servers + xs
    decreases |xs|
  {
    if |xs| > 0 {
      AddAllInOrder(AddServer(p, xs[0]), xs[1..]);
      assert (p.servers + [xs[0]]) + xs[1..] == p.servers + xs;
    }
  }

  /** A fresh pool filled from a list holds exactly that list. */
  lemma FreshPoolHoldsAdded(xs: seq<Server>)
    ensures GetServers(AddAll(NewServerPool(), xs)) == xs
  {
    AddAllInOrder(NewServerPool(), xs);
  }

  /** The number of healthy servers in a list. */
  function CountHealthy(xs: seq<Server>): nat
    decreases |xs|
  {
    if |xs| == 0 then 0
    else CountHealthy(xs[..|xs| - 1]) + (if xs[|xs| - 1].isHealthy then 1 else 0)
  }

  /** Extending a prefix by one server adds that server's share to the count. */
  lemma CountHealthyStep(xs: seq<Server>, i: int)
    requires 0 <= i < |xs|
    ensures CountHealthy(xs[..i + 1]) == CountHealthy(xs[..i]) + (if xs[i].isHealthy then 1 else 0)
  {
    assert xs[..i + 1][..i] == xs[..i];
  }

  /** GetHealthyServers: the healthy servers, in pool order — an
      order-preserving selection of the pool that keeps every healthy server
      and nothing else. */
  method GetHealthyServers(p: ServerPool) returns (healthy: seq<Server>)
    ensures IsSubsequence(healthy, p.servers)
    ensures forall i :: 0 <= i < |healthy| ==> healthy[i].isHealthy
    ensures forall i :: 0 <= i < |p.servers| && p.servers[i].isHealthy ==> p.servers[i] in healthy
    ensures |healthy| == CountHealthy(p.servers)
    ensures |healthy| <= |p.servers|
  {
    var servers := p.servers;
    healthy := [];
    var i := 0;
    while i < |servers|
      invariant 0 <= i <= |servers|
      invariant IsSubsequence(healthy, servers[..i])
      invariant forall k :: 0 <= k < |healthy| ==> healthy[k].isHealthy
      invariant forall k :: 0 <= k < i && servers[k].isHealthy ==> servers[k] in healthy
      invariant |healthy| == CountHealthy(servers[..i])
    {
      assert servers[..i + 1] == servers[..i] + [servers[i]];
      CountHealthyStep(servers, i);
      if servers[i].isHealthy {
        KeepLast(healthy, servers[..i], servers[i]);
        healthy := healthy + [servers[i]];
      } else {
        SkipLast(healthy, servers[..i], servers[i]);
      }
      i := i + 1;
    }
    assert servers[..i] == servers;
    SubsequenceElements(healthy, servers);
  }
}

=== FILE: round_robin.dfy ===
/** The round-robin balancer (load_balancer/core/round_robin.go): a cursor
    into the pool's server list that advances by one, modulo the list's
    length, on every request. The lock around the cursor is left out: the
    model is sequential. */
module RoundRobin {
  import opened Wrappers
  import opened Pool

  datatype Balancer = Balancer(pool: ServerPool, idx: int)

  const NoServersAvailable: string := "no servers available"

  /** A new balancer starts before the first server. */
  function NewRoundRobinBalancer(pool: ServerPool): (b: Balancer)
    ensures b.pool == pool && b.idx == -1
    ensures Reachable(b)
    ensures |pool.servers| > 0 ==> GetNextServer(b).1 == Ok(pool.servers[0])
  {
    Balancer(pool, -1)
  }

  /** Go's `%` for a positive divisor: the remainder carries the sign of the
      dividend, is smaller than the divisor in magnitude, and differs from
      the dividend by a multiple of the divisor. These three facts pin it
      down; on a non-negative dividend it is Dafny's `%`. */
  function GoRem(a: int, n: int): (r: int)
    requires n > 0
    ensures a >= 0 ==> 0 <= r < n && r == a % n
    ensures a < 0 ==> -n < r <= 0
    ensures (a - r) % n == 0
  {
    if a >= 0 then
      ModUnique(a - a % n, n, a / n, 0);
      a % n
    else
      var q := (-a) / n;
      assert a + (-a) % n == (-q) * n;
      ModUnique(a + (-a) % n, n, -q, 0);
      -((-a) % n)
  }

  /** The cursor never drops below -1: the constructor sets it to -1 and
      GetNextServer only stores remainders of non-negative numbers. */
  predicate Reachable(b: Balancer) {
    b.idx >= -1
  }

  /** GetNextServer: with no servers, an error and no move; otherwise the
      cursor advances by one modulo the current number of servers, and the
      server under it is returned, healthy or not. */
  function GetNextServer(b: Balancer): (r: (Balancer, Result<Server, string>))
    requires Reachable(b)
    ensures |b.pool.servers| == 0 ==> r == (b, Err(NoServersAvailable))
    ensures |b.pool.servers| > 0 ==>
              && r.0.pool == b.pool
              && 0 <= r.0.idx < |b.pool.servers|
              && r.0.idx == (b.idx + 1) % |b.pool.servers|
              && r.1 == Ok(b.pool.servers[r.0.idx])
    ensures Reachable(r.0)
  {
    var servers := GetServers(b.pool);
    if |servers| == 0 then (b, Err(NoServersAvailable))
    else
      var idx := GoRem(b.idx + 1, |servers|);
      (Balancer(b.pool, idx), Ok(servers[idx]))
  }

  /** The results of `k` calls in a row, and the balancer after them. */
  function Calls(b: Balancer, k: nat): (r: (Balancer, seq<Result<Server, string>>))
    requires Reachable(b)
    ensures Reachable(r.0) && |r.1| == k
    decreases k
  {
    if k == 0 then (b, [])
    else
      var step := GetNextServer(b);
      var rest := Calls(step.0, k - 1);
      (rest.0, [step.1] + rest.1)
  }

  /** The position, in a non-empty pool, of the server the j-th call after
      `b` returns. */
  function Position(b: Balancer, j: int): int
    requires |b.pool.servers| > 0
  {
    (b.idx + 1 + j) % |b.pool.servers|
  }

  lemma MulSign(m: int, n: int)
    requires n > 0
    ensures m >= 1 ==> m * n >= n
    ensures m <= -1 ==> m * n <= -n
  {
  }

  /** Quotient and remainder are unique. */
  lemma ModUnique(a: int, n: int, q: int, r: int)
    requires n > 0 && 0 <= r < n && a == q * n + r
    ensures a % n == r && a / n == q
  {
    var q', r' := a / n, a % n;
    assert a == q' * n + r';
    assert (q - q') * n == r' - r;
    MulSign(q - q', n);
  }

  /** Reducing a summand first does not change the remainder. */
  lemma ModOfModPlus(a: int, m: int, n: int)
    requires n > 0
    ensures (a % n + m) % n == (a + m) % n
  {
    var x := a % n + m;
    assert a == a / n * n + a % n;
    assert x == x / n * n + x % n;
    assert a + m == (a / n + x / n) * n + x % n;
    ModUnique(a + m, n, a / n + x / n, x % n);
  }

  /** Within any n consecutive integers every remainder modulo n occurs... */
  lemma ModCover(a: int, i: int, n: int) returns (j: int)
    requires n > 0 && 0 <= i < n
    ensures 0 <= j < n && (a + j) % n == i
  {
    j := (i - a) % n;
    var q := (i - a) / n;
    assert i - a == q * n + j;
    assert a + j == (-q) * n + i;
    ModUnique(a + j, n, -q, i);
  }

  /** ... and only once. */
  lemma ModDistinct(a: int, j1: int, j2: int, n: int)
    requires n > 0 && 0 <= j1 < j2 < n
    ensures (a + j1) % n != (a + j2) % n
  {
    var a1, a2 := a + j1, a + j2;
    assert a1 == a1 / n * n + a1 % n;
    assert a2 == a2 / n * n + a2 % n;
    if a1 % n == a2 % n {
      assert (a2 / n - a1 / n) * n == j2 - j1;
      MulSign(a2 / n - a1 / n, n);
    }
  }

  /** One call moves every later position up by one. */
  lemma PositionAfterStep(b: Balancer, j: int)
    requires Reachable(b) && |b.pool.servers| > 0
    ensures Position(GetNextServer(b).0, j) == Position(b, j + 1)
  {
    ModOfModPlus(b.idx + 1, j + 1, |b.pool.servers|);
  }

  /** For a fixed, non-empty pool, the j-th of `k` consecutive calls returns
      the server `j + 1` places after the cursor, cyclically. */
  lemma {:induction false} CallsCycle(b: Balancer, k: nat)
    requires Reachable(b) && |b.pool.servers| > 0
    ensures forall j :: 0 <= j < k ==> Calls(b, k).1[j] == Ok(b.pool.servers[Position(b, j)])
    ensures Calls(b, k).0.pool == b.pool
    ensures k > 0 ==> Calls(b, k).0.idx == Position(b, k - 1)
    decreases k
  {
    if k > 0 {
      var step := GetNextServer(b);
      CallsCycle(step.0, k - 1);
      forall j | 0 <= j < k
        ensures Calls(b, k).1[j] == Ok(b.pool.servers[Position(b, j)])
      {
        if j > 0 {
          assert Calls(b, k).1[j] == Calls(step.0, k - 1).1[j - 1];
          PositionAfterStep(b, j - 1);
        }
      }
      if k > 1 {
        PositionAfterStep(b, k - 2);
      }
    }
  }

  /** From a fresh balancer over a fixed pool of n servers, call number k
      (counting from 0) returns server k mod n. */
  lemma FreshBalancerCycles(pool: ServerPool, k: nat)
    requires |pool.servers| > 0
    ensures forall j :: 0 <= j < k ==>
              Calls(NewRoundRobinBalancer(pool), k).1[j] == Ok(pool.servers[j % |pool.servers|])
  {
    var b := NewRoundRobinBalancer(pool);
    CallsCycle(b, k);
    assert forall j :: 0 <= j < k ==> Position(b, j) == j % |pool.servers|;
  }

  /** Any n consecutive calls over a fixed pool of n servers visit n
      different positions... */
  lemma PositionsDistinctPerRound(b: Balancer, j1: int, j2: int)
    requires |b.pool.servers| > 0
    requires 0 <= j1 < j2 < |b.pool.servers|
    ensures Position(b, j1) != Position(b, j2)
  {
    ModDistinct(b.idx + 1, j1, j2, |b.pool.servers|);
  }

  /** ... so each server is returned once in every n consecutive calls,
      wherever the cursor starts. */
  lemma EveryServerOncePerRound(b: Balancer, i: int) returns (j: int)
    requires Reachable(b) && |b.pool.servers| > 0
    requires 0 <= i < |b.pool.servers|
    ensures 0 <= j < |b.pool.servers|
    ensures Calls(b, |b.pool.servers|).1[j] == Ok(b.pool.servers[i])
    ensures forall j' :: 0 <= j' < |b.pool.servers| && j' != j ==> Position(b, j') != i
  {
    var n := |b.pool.servers|;
    CallsCycle(b, n);
    j := ModCover(b.idx + 1, i, n);
    assert Position(b, j) == i;
    forall j' | 0 <= j' < n && j' != j
      ensures Position(b, j') != i
    {
      if j' < j {
        PositionsDistinctPerRound(b, j', j);
      } else {
        PositionsDistinctPerRound(b, j, j');
      }
    }
  }

  /** Selection looks at nothing but the cursor: a pool whose only server is
      unhealthy still gets that server. */
  lemma UnhealthyServerIsSelected(s: Server)
    requires !s.isHealthy
    ensures GetNextServer(NewRoundRobinBalancer(ServerPool([s]))).1 == Ok(s)
  {
  }
}

=== FILE: sequences.dfy ===
/** Order-preserving selection from a sequence. */
module Sequences {

  /** `a` can be obtained from `b` by deleting elements, without reordering
      the ones kept. Defined on the last element of `b`, so that appending
      to both sides (or to `b` alone) unfolds in one step. */
  predicate IsSubsequence<T(==)>(a: seq<T>, b: seq<T>)
    decreases |b|
  {
    if |b| == 0 then |a| == 0
    else
      || (|a| > 0 && a[|a| - 1] == b[|b| - 1] && IsSubsequence(a[..|a| - 1], b[..|b| - 1]))
      || IsSubsequence(a, b[..|b| - 1])
  }

  /** Keeping an element of `b` extends a subsequence by that element. */
  lemma KeepLast<T>(a: seq<T>, b: seq<T>, x: T)
    requires IsSubsequence(a, b)
    ensures IsSubsequence(a + [x], b + [x])
  {
    assert (a + [x])[..|a|] == a;
    assert (b + [x])[..|b|] == b;
  }

  /** Skipping an element of `b` keeps a subsequence a subsequence. */
  lemma SkipLast<T>(a: seq<T>, b: seq<T>, x: T)
    requires IsSubsequence(a, b)
    ensures IsSubsequence(a, b + [x])
  {
    assert (b + [x])[..|b|] == b;
  }

  /** Every element of a subsequence occurs in the full sequence. */
  lemma {:induction false} SubsequenceElements<T>(a: seq<T>, b: seq<T>)
    requires IsSubsequence(a, b)
    ensures |a| <= |b|
    ensures forall x :: x in a ==> x in b
    decreases |b|
  {
    if |b| > 0 {
      var b' := b[..|b| - 1];
      if |a| > 0 && a[|a| - 1] == b[|b| - 1] && IsSubsequence(a[..|a| - 1], b') {
        SubsequenceElements(a[..|a| - 1], b');
        assert a == a[..|a| - 1] + [a[|a| - 1]];
        assert b == b' + [b[|b| - 1]];
      } else {
        SubsequenceElements(a, b');
        assert b == b' + [b[|b| - 1]];
      }
    }
  }
}

=== FILE: wrappers.dfy ===
/** Failure-carrying datatypes shared by every module of the model. */
module Wrappers {

  /** A value that may be absent: a Python `None`, a missing dictionary key. */
  datatype Option<+T> = None | Some(value: T)

  /** Either a successful value or the error that rejected the call. */
  datatype Result<+T, +E> = Ok(value: T) | Err(error: E)
}
